=== FILE: README.md ===
# htmlgrabr, modelled in Dafny

htmlgrabr turns a web page into a readable, sanitized article. It parses the
HTML, takes the `<base href>`, the Open Graph properties and the image
inventory from the whole document, lets a main-content extractor pick the
article, and runs the article's HTML through a sanitizing engine. The engine
calls a chain of single-node filter hooks on every element it walks.

This project models the pure core of that pipeline:

- **`Js`** (`js.dfy`): the JavaScript value semantics the code relies on. It
  covers `string | null | undefined`, truthiness, `||`, `String(v)`,
  `startsWith` and the regular expressions the filters use.
- **`Dom`** (`dom.dfy`): one DOM node as the filters see it, which is its node
  type, name, attribute map and whether it is attached to a parent. It also
  has the attribute operations and the removal of a node from its parent.
- **`NodeRuntime`** (`node_runtime.dfy`): the runtime libraries the core
  calls, as a record of functions. These are `url.parse`, `url.resolve`, the
  `URL` constructor and `mime.lookup`. It also holds the small derived rules:
  the `'undefined'` hostname fallback and the `^https?://` test.
- **`BlockedHost`, `Blacklist`** (`blocked_host.dfy`, `blacklist.dfy`): the two
  hostname policies.
- **`Helpers`** (`helpers.dfy`): `isElementNode`, `extractBaseUrl`,
  `extractOpenGraphProps` and `extractImages`.
- **`Sanitize`** (`sanitize.dfy`): the seven filters of `src/sanitize.ts`, how
  `sanitize` builds its hook chain from its properties, and the chain's
  effect on one node.
- **`DomCleaner`** (`dom_cleaner.dfy`): the older cleaner. It covers the
  filters that return the node or `null`, the loop that stops at the first
  `null`, the tag-name skip rule, and the push onto the module-level default
  array that calls share.
- **`HtmlGrabr`** (`htmlgrabr.dfy`): the constructor's configuration merge,
  the result assembly of `grab` and the status check of `grabUrl`. It also
  has the end-to-end example of the repository's test file.

Things the code does not do:

- `grabUrl` makes one `fetch` and checks only `res.ok`. It makes no HEAD
  request and checks no content type.
- No site-rule engine runs: `src/rules.ts` is not imported by anything.
- `sanitize` is not idempotent in general. A second pass runs the URL
  rewriter again (`Sanitize.SecondPassRewritesAgain`). The default
  four-filter chain is proved idempotent (`Sanitize.DefaultChainIsIdempotent`).

Behaviours of the code as written that the model keeps and proves:

- `grab` passes its host policy to `sanitize` under the key `isBlacklisted`.
  `sanitize` reads `isBlockedHost`, so no host filter is ever installed
  (`HtmlGrabr.GrabChainHasNoHostFilter`).
- `sanitize` puts `props.filters` into the chain as a single entry without
  spreading it.
- `clean` pushes its rebaser onto the shared default array, so later calls
  inherit earlier calls' rebasers (`DomCleaner.SecondCallUsesFirstBase`).
- The skip test of `clean` is an unanchored match, so `THEAD`, `TBODY` and
  `BLINK` elements are skipped.
- `extractOpenGraphProps` nulls `url` on every iteration in which it is not a
  valid URL.

## Model

| member | source | states |
|---|---|---|
| NodeRuntime.HostnameOf | src/sanitize.ts:59 | The hostname the host filters check is never empty: it is the parsed hostname when that is non-empty, and the literal "undefined" otherwise. |
| Dom.RemoveEach | src/sanitize.ts:28 | After the `forEach` removal, no listed attribute is left. Every other attribute, the node's name, its type and its parent link are unchanged, and no attribute is added. |
| Dom.RemoveEachAbsent | src/dom_cleaner.ts:22 | Removing attributes that a node does not carry leaves the node exactly as it was. |
| BlockedHost.IsBlockedHost | src/blocked-host.ts:3-5 | A hostname is blocked exactly when it is `doubleclick.net` or `feeds.feedburner.com`. |
| BlockedHost.SubdomainIsNotBlocked | src/blocked-host.ts:3-5 | Membership is exact: subdomains of the blocked hosts are not blocked. |
| BlockedHost.BlockedHostIsCaseSensitive | src/blocked-host.ts:3-5 | Membership is case-sensitive: `DoubleClick.net` is not blocked. |
| Blacklist.IsBlacklisted | src/blacklist.ts:5-9 | A hostname is blacklisted exactly when it is `doubleclick.net` or `feeds.feedburner.com`. |
| Blacklist.BlacklistIsExact | src/blacklist.ts:5-9 | Subdomains, other spellings and parent domains are not blacklisted. |
| Blacklist.BlacklistAgreesWithBlockedHost | src/blacklist.ts:5-9 | The two host policies agree on every hostname. |
| Helpers.IsElementNode | src/helpers.ts:17 | A node is an element exactly when it has a tag name. |
| Helpers.FirstNamedIndex | src/helpers.ts:29 | `getElementsByTagName(..)[0]` gives the position of the first node with that name, or none exactly when no node has the name. |
| Helpers.ExtractBaseUrl | src/helpers.ts:24-40 | Without a head the result is null. A result is always the `href` of the head's first `<base>`, with the protocol-relative fix, and is always a valid URL. When that first `<base>` has an `href` that is a valid URL after the fix, a result is produced. |
| Helpers.OnlyFirstBaseCounts | src/helpers.ts:29-30 | Nodes after the first `<base>`, including later `<base>` elements, never change the result. |
| Helpers.BaseUrlHasScheme | src/helpers.ts:32-34 | A base URL never starts with `//`, because a protocol-relative `href` gets `http:` in front. |
| Helpers.IsValidUrl | src/helpers.ts:4-11 | A value is a valid URL exactly when the `URL` constructor accepts its string form: the string itself, or "undefined" or "null". |
| Helpers.Metas | src/helpers.ts:56 | The head's meta list contains only `META` elements and is no longer than the head. |
| Helpers.MetasOfOne | src/helpers.ts:56 | A single node is listed exactly when it is a `META`. |
| Helpers.MetasAppend | src/helpers.ts:56 | Document order is kept: the metas of two node runs in sequence are the concatenation of their metas. |
| Helpers.MetasAreComplete | src/helpers.ts:56 | Every `META` of the head is listed. |
| Helpers.ExtractOpenGraphProps | src/helpers.ts:53-55 | A document without a head has no Open Graph properties. |
| Helpers.OgStep | src/helpers.ts:58-65 | One iteration sets the key named by an `og:` property to the tag's `content` and leaves every other key alone. `url` then holds its new value if that is a valid URL, and null otherwise. |
| Helpers.ScanMetas | src/helpers.ts:57-66 | After at least one meta tag, `url` is null or valid. A key that no scanned tag sets keeps its earlier value. |
| Helpers.OgPropsAreLastValues | src/helpers.ts:57-66 | Every property other than `url` holds the `content` of the last meta tag that sets it (undefined if none does). After at least one meta tag, `url` holds the last `og:url` content if that converts to a valid URL, and null otherwise. |
| Helpers.OgUrlIsValidOrNull | src/helpers.ts:63-65 | When `new URL("undefined")` fails and the head has a meta tag, the `url` property is null or a valid URL. |
| Helpers.DocumentImages | src/helpers.ts:91-102 | Each inventory entry has a non-empty `src` that is not a `data:` URI, in any letter case. Its content type is the MIME lookup of that `src`, or empty. The inventory is never longer than the document. |
| Helpers.DocumentImagesOfOne | src/helpers.ts:93-101 | A single node contributes one entry exactly when it is an `<img>` with a non-empty, non-`data:` `src`, and otherwise contributes nothing. |
| Helpers.DocumentImagesAppend | src/helpers.ts:91-102 | Document order is preserved: the inventory of two node runs in sequence is the concatenation of their inventories. |
| Helpers.NoImagesWithoutImg | src/helpers.ts:91 | Elements that are not `<img>` contribute no entries. |
| Helpers.ExtractImages | src/helpers.ts:81-104 | A truthy illustration comes first, with its MIME type and without validation. It is followed by exactly the document's inventory. |
| Sanitize.RemoveAttributes | src/sanitize.ts:25-31 | On an element, the listed attributes are gone and everything else is unchanged. A non-element is left untouched. |
| Sanitize.RemoveImageTracker | src/sanitize.ts:37-47 | The node stays attached exactly when it was attached and is not a 1x1 `IMG`. Nothing but the parent link ever changes. |
| Sanitize.RemoveBlockedHostLinks | src/sanitize.ts:54-66 | The node stays attached exactly when it was attached and is not an element whose non-empty `src` (else `href`) has a blocked hostname, with a missing hostname read as "undefined". Nothing but the parent link changes. |
| Sanitize.ExternalizeLinks | src/sanitize.ts:72-79 | An `A` with an `href` gets `target="_blank"` and `rel="noopener noreferrer"`, and nothing else changes. Every other node is untouched. |
| Sanitize.RebaseSrcAttribute | src/sanitize.ts:86-99 | On an element, `src` if present (even empty), else `href`, becomes its value resolved against the base. The value is kept when it is empty or already absolute http(s). No other attribute changes. Non-elements, and elements with neither `src` nor `href`, are untouched. |
| Sanitize.AddLazyLoadingAttribute | src/sanitize.ts:101-107 | Nodes named `IMG` or `IFRAME` get `loading="lazy"` and nothing else. Other nodes are untouched. |
| Sanitize.RewriteSrcAttribute | src/sanitize.ts:109-118 | An element's non-empty `src` is replaced by the rewriter's output. Nothing else changes, and every other node is untouched. |
| Sanitize.ApplyChainAppend | src/sanitize.ts:148 | Hooks run in registration order: running two chains in sequence is running their concatenation. |
| Sanitize.ReadProps | src/sanitize.ts:12-18 | `sanitize` reads exactly the keys `baseURL`, `isBlockedHost`, `rewriteURL` and `filters`. A present key's value is passed through, and a missing key reads as undefined. |
| Sanitize.Front | src/sanitize.ts:141-146 | The entries ahead of the defaults are the rewriter (first, exactly when given) and the host filter (last among them, exactly when given). There is never a rebaser. |
| Sanitize.Back | src/sanitize.ts:138-140 | Exactly one rebaser, for the base URL, is pushed when the base URL is truthy, and none otherwise. |
| Sanitize.ChainLayout | src/sanitize.ts:137-146 | In the assembled chain, a rewriter occurs only at index 0, a host filter only right before the defaults, and a rebaser only at the end, each exactly when configured. |
| Sanitize.FilterChain | src/sanitize.ts:137-146 | The chain has, in order: the rewriter when given (and only then, at index 0); the host filter when given (only there); the four defaults; one `filters` slot; and the rebaser last, exactly when the base URL is truthy. |
| Sanitize.PlainChain | src/sanitize.ts:137-146 | Without a rewriter, a host check or a truthy base URL, the chain is the four defaults followed by the `filters` slot. |
| Sanitize.Sanitize | src/sanitize.ts:133-152 | For every property object, the engine runs with `FilterChain` of the properties as hooks (whose layout `FilterChain`'s contract fixes) and `target` as the added attribute. Without a rewriter, a host check or a base URL, that chain is the defaults plus the `filters` slot. |
| Sanitize.RewriteBeforeRebase | src/sanitize.ts:137-146 | Whenever both are present, the rewriter comes before the rebaser. |
| Sanitize.ExternalizeLinksIsIdempotent | src/sanitize.ts:72-79 | Externalizing twice is externalizing once. |
| Sanitize.AddLazyLoadingIsIdempotent | src/sanitize.ts:101-107 | Adding lazy loading twice is adding it once. |
| Sanitize.EmptySrcShadowsHref | src/sanitize.ts:90-95 | An element with an empty `src` is left unchanged, and its `href` is not rebased. |
| Sanitize.DefaultChainUnfold | src/sanitize.ts:120-125 | The default chain is attribute stripping, then tracker removal, then link externalizing, then lazy loading. |
| Sanitize.DefaultChainEstablishesDone | src/sanitize.ts:120-125 | After the default chain, elements lack `id` and `class`, trackers are detached, links are externalized and images are lazy. |
| Sanitize.DefaultChainKeepsDone | src/sanitize.ts:120-125 | A node already in that state passes through the default chain unchanged. |
| Sanitize.DefaultChainIsIdempotent | src/sanitize.ts:120-125 | Running the default chain twice is running it once. |
| Sanitize.DefaultChainKeepsSrc | src/sanitize.ts:120-125 | The default chain never changes a node's type, name or `src`. |
| Sanitize.DefaultChainOnImage | src/sanitize.ts:120-125 | An `IMG` without `id` or `class` that is not a tracker only gains `loading="lazy"`. |
| Sanitize.DefaultChainDetachesTracker | src/sanitize.ts:120-125 | A 1x1 image comes out of the default chain detached. |
| Sanitize.RewriterOnlyChain | src/sanitize.ts:137-146 | With only a rewriter configured, the chain acts as the rewriter followed by the default chain, because the `filters` slot has no effect. |
| Sanitize.RewriterOnlyChainSrc | src/sanitize.ts:144-146 | With only a rewriter configured, an element's non-empty `src` comes out as the rewriter's output. |
| Sanitize.SecondPassRewritesAgain | src/sanitize.ts:144-146 | With a prefixing rewriter, a second pass prefixes `src` again, so sanitizing is not idempotent. |
| DomCleaner.RemoveAttributes | src/dom_cleaner.ts:20-25 | The node is always returned, without the listed attributes and otherwise unchanged, and this holds on any node. |
| DomCleaner.RemoveImageTraker | src/dom_cleaner.ts:31-46 | The result is `null` exactly for an attached 1x1 `IMG`. Otherwise the node is returned unchanged. |
| DomCleaner.RemoveBlacklistedLinks | src/dom_cleaner.ts:53-65 | The result is `null` exactly when the node is attached and its non-empty `src` (else `href`) has a blacklisted hostname, with a missing hostname read as "undefined". Otherwise the node is returned unchanged. No element check is made. |
| DomCleaner.ExternalizeLinks | src/dom_cleaner.ts:71-81 | An `A` with an `href` gets only `target="_blank"`, and `rel` is never touched. Every other node is returned unchanged. |
| DomCleaner.RebaseSrcAttribute | src/dom_cleaner.ts:88-100 | `src` if present, else `href`, is resolved against the base unless it is empty or absolute http(s) (`^https?://`); other absolute schemes such as `ftp:` or `data:` are still resolved. Nothing else changes. |
| DomCleaner.MoveAttribute | src/dom_cleaner.ts:108-118 | When `attr1` is present it is removed, and `attr2` takes `attr1`'s value if that is non-empty, else keeps its own value, else becomes empty. No other attribute changes. Without `attr1` the node is unchanged. |
| DomCleaner.PipelineAppend | src/dom_cleaner.ts:148-157 | A pass through two chains in sequence is the first pass, then, if the node survived, the second. |
| DomCleaner.LaterFiltersNeverRun | src/dom_cleaner.ts:148-157 | Once a filter returns `null`, no later filter can bring the node back. |
| DomCleaner.PipelineNullAtFirstNull | src/dom_cleaner.ts:148-157 | A pass ends in `null` exactly when some filter returns `null` on what the filters before it produced. |
| DomCleaner.RunFilters | src/dom_cleaner.ts:148-157 | The loop with its early `break` computes the reference pass exactly. |
| DomCleaner.IsSkipped | src/dom_cleaner.ts:142 | The skip regex: a tag name is skipped when it contains HTML, HEAD, BODY, META, LINK or STYLE anywhere. Its behaviour is stated by the next three rows. |
| DomCleaner.SkippedNamesStaySkipped | src/dom_cleaner.ts:142 | The match is unanchored: a skipped tag name stays skipped whatever is put before or after it. |
| DomCleaner.SkipIsSubstringMatch | src/dom_cleaner.ts:142-144 | `HEAD`, `THEAD`, `TBODY` and `BLINK` elements are all skipped. |
| DomCleaner.ContentTagsAreCleaned | src/dom_cleaner.ts:142-144 | `DIV`, `IMG`, `A` and `SPAN` elements are not skipped. |
| DomCleaner.PrepareChain | src/dom_cleaner.ts:133-139 | The rebaser is appended to the given array, or to the shared default array when none is given, exactly when the base URL is truthy. Without an argument, the default array itself grows. The blacklist filter goes first in the chain that runs, exactly when one is given. |
| DomCleaner.Clean | src/dom_cleaner.ts:133-161 | Every element with a skipped name is left alone. Every other element gets the reference pass through the prepared chain, in document order. |
| DomCleaner.DefaultChainAccumulates | src/dom_cleaner.ts:133-135 | Two calls without a filter argument leave both rebasers on the shared default array. |
| DomCleaner.DefaultPipelineKeepsSrc | src/dom_cleaner.ts:120-125 | The default chain passes every node except an attached tracker, with its `src` unchanged. |
| DomCleaner.SecondCallUsesFirstBase | src/dom_cleaner.ts:133-135 | On a second call, a relative `src` is resolved against the first call's base URL, and the second rebaser then leaves it alone. |
| DomCleaner.ExternalizersDiffer | src/dom_cleaner.ts:71-81 | The older externalizer leaves `rel` alone. The sanitizer's differs from it only by also setting `rel`. |
| DomCleaner.HostFiltersAgree | src/dom_cleaner.ts:53-65 | On an element, the older filter returns `null` exactly when the sanitizer's filter with the same predicate detaches it. |
| HtmlGrabr.MergeConfig | src/htmlgrabr.ts:30-44 | Every field the caller leaves out keeps its default: no debug, no pretty-printing, the built-in blacklist, no rewriter, and the HTMLGrabr User-Agent. Every field the caller writes wins, even when its value is `undefined`. |
| HtmlGrabr.NoArgumentKeepsDefaults | src/htmlgrabr.ts:42-44 | `new HTMLGrabr()` gives the default configuration: debug off and a `User-Agent` header present. |
| HtmlGrabr.EffectiveBaseUrl | src/htmlgrabr.ts:62 | A non-empty extracted base URL wins. Otherwise, including when none was extracted, the caller's base URL is used. |
| HtmlGrabr.SanitizeArguments | src/htmlgrabr.ts:78 | The object `grab` hands to `sanitize` carries the host policy under `isBlacklisted`. It has no `isBlockedHost` and no `filters` key, and it forwards the effective base URL and the rewriter. |
| HtmlGrabr.GrabChainHasNoHostFilter | src/htmlgrabr.ts:78 | The chain `grab` registers never holds a host filter. The rewriter is first exactly when configured, and the rebaser is last exactly when the base URL is truthy. |
| HtmlGrabr.Grab | src/htmlgrabr.ts:52-97 | `grab` fails when the parser rejects the base URL, and otherwise exactly when no article is found. On success, the title is the Open Graph title if truthy, else the article's. The URL is the Open Graph URL if truthy, else the effective base URL. The image is the Open Graph image. The images are the inventory headed by that image. Text, excerpt and length come from the article. |
| HtmlGrabr.GrabHtml | src/htmlgrabr.ts:77-85 | The page HTML is the engine's output for the article under `grab`'s chain, pretty-printed exactly when `pretty` is true. |
| HtmlGrabr.GrabPutsOgImageFirst | src/htmlgrabr.ts:68 | A truthy Open Graph image is the first entry of the page's images. |
| HtmlGrabr.GrabUrlIsValidOgUrlOrBase | src/htmlgrabr.ts:89 | When the head has a meta tag and `new URL("undefined")` fails, the page URL is a valid Open Graph URL or the effective base URL. |
| HtmlGrabr.GrabUrl | src/htmlgrabr.ts:104-115 | A non-ok response rejects with "bad status response: " followed by the status text. An ok response is grabbed with the URL as base. |
| HtmlGrabr.NotFoundRejects | src/htmlgrabr.spec.ts:16-22 | A 404 whose status text is "Not Found" rejects with "bad status response: Not Found". |
| HtmlGrabr.ExampleProps | src/htmlgrabr.spec.ts:49-52 | The test's configuration reaches `sanitize` with only the rewriter and no base URL. |
| HtmlGrabr.ExampleRewritesContentImage | src/htmlgrabr.spec.ts:51-58 | The test's rewriter turns `world.png` into `https://foo.bar/world.png`. |
| HtmlGrabr.ExampleChainIsRewriterOnly | src/htmlgrabr.spec.ts:49-52 | In the test's configuration, each node is rewritten and then passed through the default chain, and nothing else runs. |
| HtmlGrabr.ExampleChainOnContentImage | src/htmlgrabr.spec.ts:58-66 | The test's content image comes out with `src="https://foo.bar/world.png"` and `loading="lazy"`, as the expected HTML shows. |
| HtmlGrabr.ExampleRewrittenTrackerIsPixel | src/htmlgrabr.spec.ts:59 | Rewriting the tracker's `src` leaves it a 1x1 image. |
| HtmlGrabr.ExampleChainOnTracker | src/htmlgrabr.spec.ts:59-67 | The test's 1x1 tracker is removed, since it is absent from the expected HTML. |
| HtmlGrabr.ExampleHasNoMetadata | src/htmlgrabr.spec.ts:55-56 | The test document has no base URL and no Open Graph properties. |
| HtmlGrabr.ExampleImagesAreKept | src/htmlgrabr.spec.ts:58-59 | Both test images have a non-`data:` `src`, so both are kept, in order. |
| HtmlGrabr.ExampleInventory | src/htmlgrabr.spec.ts:57-60 | The test document's inventory lists `world.png`, then `stracker.jpg`. |
| HtmlGrabr.ExampleGrab | src/htmlgrabr.spec.ts:48-69 | The test document grabs successfully with title "Test" and no URL or image. The inventory, taken before sanitizing, lists both images in order. |

## Left out

- Fetching, parsing (JSDOM), main-content extraction (Readability),
  pretty-printing and the sanitizing engine's own traversal, stripping and
  serialization are function parameters, not models. The result of `grab` is
  stated in terms of them.
- The entry for `props.filters` is modelled as a hook with no effect. The
  engine's `addHook` is assumed to ignore a value that is not a function, as
  with `filters` undefined in `grab`'s call. Caller-supplied filter functions
  are therefore never run.
- `url.parse`, `url.resolve`, `new URL` validity and `mime.lookup` are left
  abstract. Properties that depend on them take them as parameters or
  assumptions.
- Attribute order is not modelled: attributes are a map.
- Attribute names are matched exactly as given. The DOM lowercases the name
  passed to `hasAttribute`, `getAttribute`, `setAttribute` and
  `removeAttribute` on HTML elements; the model assumes names are lowercase
  already, as at every call site in the source. A caller passing `DATA-SRC` to
  `moveAttribute` or `removeAttributes` is outside the model.
- `debug` and its console logging are left out. `grab` passes `debug` in the
  property object, but `sanitize` never reads it. Readability's `debug`
  option is left out as well.
- Redirects are left to `fetch`, and rules.ts is not part of this model
  because nothing imports it.
- The asynchronous shape of `grab` and `grabUrl` is modelled as a `Result`.
  A missing article, which makes the code throw on `article.content`, is the
  error `NoArticle`. A base URL that the JSDOM constructor refuses as its
  `url` option is the error `BadBaseUrl`.
- `clean`'s debug logging is left out. Its reliance on the shared default
  array is modelled by `DomCleaner.ChainSetup`, which returns the array as it
  stands after the call.
- The tree is flattened: the extractors see the document's elements in
  document order, and the filters see one node at a time. Removing a node
  detaches it but does not remove its descendants from the list.
- Helpers.OgUrlIsValidOrNull: holds only when `new URL("undefined")` fails.
  This is the WHATWG parser's behaviour, which the model does not fix.
- Helpers.OgStep: the result object is modelled as a map of own keys. In
  JavaScript, `result['__proto__'] = content` goes through the prototype
  setter and creates no own key, so `og:__proto__` is outside the model.
- Helpers.OgPropsAreLastValues: stated over a map of own keys. Names the
  object inherits from `Object.prototype` (`constructor`, `toString`, ...)
  read as inherited functions in JavaScript, not undefined, and
  `og:__proto__` creates no own key; both are outside the model. `grab`
  reads only `title`, `url` and `image`, which are unaffected.
- Helpers.ExtractOpenGraphProps: its own contract covers only the no-head
  case. The per-key content is stated by `Helpers.OgPropsAreLastValues`.
- HtmlGrabr.Grab: which base URLs the parser refuses is left to the parse
  parameter. The contract says only that a refusal rejects with `BadBaseUrl`
  before anything else happens.

=== FILE: blacklist.dfy ===
/** The older host policy, used by the DOM cleaner and the grabber's defaults. */
module Blacklist {
  import BlockedHost

  /** The compiled-in hostname set. */
  const Db: set<string> := {"doubleclick.net", "feeds.feedburner.com"}

  /** Exact, case-sensitive membership of `hostname` in the set. */
  predicate IsBlacklisted(hostname: string): (r: bool)
    ensures r <==> hostname == "doubleclick.net" || hostname == "feeds.feedburner.com"
  {
    hostname in Db
  }

  /** Subdomains and other spellings are not matched. */
  lemma BlacklistIsExact()
    ensures !IsBlacklisted("ad.doubleclick.net")
    ensures !IsBlacklisted("DoubleClick.net")
    ensures !IsBlacklisted("feedburner.com")
  {
  }

  /** The two policies hold the same hostnames, so they agree on every input. */
  lemma BlacklistAgreesWithBlockedHost(hostname: string)
    ensures IsBlacklisted(hostname) <==> BlockedHost.IsBlockedHost(hostname)
  {
  }
}

=== FILE: blocked_host.dfy ===
/** The host policy of the sanitizer: a fixed set of blocked hostnames. */
module BlockedHost {

  /** The compiled-in hostname set. */
  const Db: set<string> := {"doubleclick.net", "feeds.feedburner.com"}

  /** Exact, case-sensitive membership of `hostname` in the set. */
  predicate IsBlockedHost(hostname: string): (r: bool)
    ensures r <==> hostname == "doubleclick.net" || hostname == "feeds.feedburner.com"
  {
    hostname in Db
  }

  /** Only exact matches are blocked: a subdomain of a blocked host is not. */
  lemma SubdomainIsNotBlocked()
    ensures !IsBlockedHost("ad.doubleclick.net")
    ensures !IsBlockedHost("www.feeds.feedburner.com")
  {
  }

  /** The comparison is case-sensitive. */
  lemma BlockedHostIsCaseSensitive()
    ensures IsBlockedHost("doubleclick.net")
    ensures !IsBlockedHost("DoubleClick.net")
  {
  }
}

=== FILE: dom.dfy ===
/**
  The slice of the DOM one filter looks at: a single node with its type,
  its name, its attributes and whether it is still attached to a parent.
 */
module Dom {
  import opened Wrappers
  import opened Js

  /** `Node.ELEMENT_NODE`. */
  const ELEMENT_NODE: int := 1

  /**
    One DOM node. `nodeName` is upper case for HTML elements (`IMG`, `A`),
    `#text` and the like for other nodes. `hasParent` says whether
    `parentNode` is non-null; removing a node from its parent clears it.
   */
  datatype Node = Node(nodeType: int, nodeName: string, attributes: map<string, string>, hasParent: bool)

  /** `node.tagName`: defined on elements only. */
  function TagName(n: Node): JsStr {
    if n.nodeType == ELEMENT_NODE then Str(n.nodeName) else Undefined
  }

  predicate HasAttribute(n: Node, name: string) {
    name in n.attributes
  }

  /** `node.getAttribute(name)`: the value, or `null` when the attribute is absent. */
  function GetAttribute(n: Node, name: string): JsStr {
    if name in n.attributes then Str(n.attributes[name]) else Null
  }

  function SetAttribute(n: Node, name: string, value: string): Node {
    n.(attributes := n.attributes[name := value])
  }

  function RemoveAttribute(n: Node, name: string): Node {
    n.(attributes := n.attributes - {name})
  }

  /** `node.parentNode.removeChild(node)`. */
  function Detach(n: Node): Node {
    n.(hasParent := false)
  }

  /** `r` is `n` except, possibly, for the attributes named in `names`. */
  ghost predicate SameExcept(n: Node, r: Node, names: set<string>) {
    && r.nodeType == n.nodeType
    && r.nodeName == n.nodeName
    && r.hasParent == n.hasParent
    && forall a :: a !in names ==> GetAttribute(r, a) == GetAttribute(n, a)
  }

  /** `blacklist.forEach((attr) => node.hasAttribute(attr) && node.removeAttribute(attr))`. */
  function RemoveEach(blacklist: seq<string>, n: Node): (r: Node)
    ensures forall a :: a in blacklist ==> !HasAttribute(r, a)
    ensures SameExcept(n, r, set a | a in blacklist)
    ensures r.attributes.Keys <= n.attributes.Keys
    decreases |blacklist|
  {
    if |blacklist| == 0 then n
    else
      var m := if HasAttribute(n, blacklist[0]) then RemoveAttribute(n, blacklist[0]) else n;
      RemoveEach(blacklist[1..], m)
  }

  /** Removing attributes an element does not have changes nothing. */
  lemma {:induction false} RemoveEachAbsent(blacklist: seq<string>, n: Node)
    requires forall a :: a in blacklist ==> !HasAttribute(n, a)
    ensures RemoveEach(blacklist, n) == n
    decreases |blacklist|
  {
    if |blacklist| > 0 {
      RemoveEachAbsent(blacklist[1..], n);
    }
  }

  /** A 1x1 tracking pixel: an `IMG` whose `height` and `width` are both the string "1". */
  predicate IsTrackerPixel(n: Node) {
    TagName(n) == Str("IMG") && GetAttribute(n, "height") == Str("1") && GetAttribute(n, "width") == Str("1")
  }

  /** The URL whose host the host filters check: a non-empty `src`, else a non-empty `href`. */
  function LinkedUrl(n: Node): Option<string> {
    if HasAttribute(n, "src") && n.attributes["src"] != "" then Some(n.attributes["src"])
    else if HasAttribute(n, "href") && n.attributes["href"] != "" then Some(n.attributes["href"])
    else None
  }

  /** An anchor with an `href`. */
  predicate IsLink(n: Node) {
    TagName(n) == Str("A") && HasAttribute(n, "href")
  }
}

=== FILE: dom_cleaner.dfy ===
/**
  The older DOM cleaner: filters that return the node or `null`, run over
  every element of a document by `clean`, which stops a node's chain at the
  first `null`.
 */
module DomCleaner {
  import opened Wrappers
  import opened Js
  import opened Dom
  import opened NodeRuntime
  import Sanitize

  // ---------------------------------------------------------------------
  // Single-node filters: `None` is a `null` return, after which the node
  // has been removed from its parent.
  // ---------------------------------------------------------------------

  /** The `removeAttributes` filter: the listed attributes are removed and the node is returned. */
  function RemoveAttributes(blacklist: seq<string>, n: Node): (r: Option<Node>)
    ensures r.Some?
    ensures forall a :: a in blacklist ==> !HasAttribute(r.value, a)
    ensures SameExcept(n, r.value, set a | a in blacklist)
  {
    Some(RemoveEach(blacklist, n))
  }

  /** The `removeImageTraker` filter: `null` exactly for an attached tracking pixel, otherwise the unchanged node. */
  function RemoveImageTraker(n: Node): (r: Option<Node>)
    ensures r.None? <==> IsTrackerPixel(n) && n.hasParent
    ensures r.Some? ==> r.value == n
  {
    if TagName(n) != Str("IMG") then Some(n)
    else if HasAttribute(n, "height") || HasAttribute(n, "width") then
      var height := GetAttribute(n, "height");
      var width := GetAttribute(n, "width");
      if height == Str("1") && width == Str("1") && n.hasParent then None else Some(n)
    else Some(n)
  }

  /**
    The `removeBlacklistedLinks` filter: `null` exactly for an attached node
    whose linked URL's hostname (the literal "undefined" when there is none)
    is blacklisted, otherwise the unchanged node.
   */
  function RemoveBlacklistedLinks(isBlacklisted: string -> bool, rt: Runtime, n: Node): (r: Option<Node>)
    ensures r.None? <==> n.hasParent && LinkedUrl(n).Some? && isBlacklisted(HostnameOf(rt, LinkedUrl(n).value))
    ensures r.Some? ==> r.value == n
  {
    var src := Or(GetAttribute(n, "src"), GetAttribute(n, "href"));
    if Truthy(src) then
      var hostname := HostnameOf(rt, src.s);
      if isBlacklisted(hostname) && n.hasParent then None else Some(n)
    else Some(n)
  }

  /** The `externalizeLinks` filter: an anchor with an `href` gets `target="_blank"` and nothing else. */
  function ExternalizeLinks(n: Node): (r: Option<Node>)
    ensures r.Some?
    ensures IsLink(n) ==> GetAttribute(r.value, "target") == Str("_blank") && SameExcept(n, r.value, {"target"})
    ensures !IsLink(n) ==> r.value == n
    ensures GetAttribute(r.value, "rel") == GetAttribute(n, "rel")
  {
    if TagName(n) != Str("A") then Some(n)
    else if HasAttribute(n, "href") then Some(SetAttribute(n, "target", "_blank"))
    else Some(n)
  }

  /**
    The `rebaseSrcAttribute` filter: the `src` attribute when present (even
    empty), otherwise the `href`, is made absolute against `baseURL`; no other
    attribute changes.
   */
  function RebaseSrcAttribute(baseURL: string, rt: Runtime, n: Node): (r: Option<Node>)
    ensures r.Some?
    ensures HasAttribute(n, "src") ==>
      SameExcept(n, r.value, {"src"}) && GetAttribute(r.value, "src") == Str(Rebased(rt, baseURL, n.attributes["src"]))
    ensures !HasAttribute(n, "src") && HasAttribute(n, "href") ==>
      SameExcept(n, r.value, {"href"}) && GetAttribute(r.value, "href") == Str(Rebased(rt, baseURL, n.attributes["href"]))
    ensures !HasAttribute(n, "src") && !HasAttribute(n, "href") ==> r.value == n
  {
    var attr := if HasAttribute(n, "src") then Str("src") else if HasAttribute(n, "href") then Str("href") else Null;
    if Truthy(attr) then
      var src := GetAttribute(n, attr.s);
      if Truthy(src) && !IsAbsoluteHttp(src.s) then Some(SetAttribute(n, attr.s, rt.resolve(baseURL, src.s))) else Some(n)
    else Some(n)
  }

  /**
    The `moveAttribute` filter: when `attr1` is present it is removed and
    `attr2` takes its value if non-empty, else keeps its own value, else
    becomes empty. Without `attr1`, nothing changes.
   */
  function MoveAttribute(attr1: string, attr2: string, n: Node): (r: Option<Node>)
    ensures r.Some?
    ensures !HasAttribute(n, attr1) ==> r.value == n
    ensures HasAttribute(n, attr1) ==> !HasAttribute(r.value, attr1) && SameExcept(n, r.value, {attr1, attr2})
    ensures HasAttribute(n, attr1) && attr1 != attr2 ==>
      GetAttribute(r.value, attr2) == Str(
        if n.attributes[attr1] != "" then n.attributes[attr1]
        else if HasAttribute(n, attr2) then n.attributes[attr2]
        else "")
  {
    if HasAttribute(n, attr1) then
      var val1 := GetAttribute(n, attr1);
      var val2 := Or(GetAttribute(n, attr2), Str(""));
      Some(RemoveAttribute(SetAttribute(n, attr2, Or(val1, val2).s), attr1))
    else Some(n)
  }

  // ---------------------------------------------------------------------
  // Chains
  // ---------------------------------------------------------------------

  /** One filter of the older chain. */
  datatype Filter =
    | StripAttributes(blacklist: seq<string>)
    | TrackerRemoval
    | BlacklistedLinks(isBlacklisted: string -> bool)
    | Externalize
    | Rebase(baseURL: string)
    | Move(attr1: string, attr2: string)

  function ApplyFilter(rt: Runtime, f: Filter, n: Node): Option<Node> {
    match f
    case StripAttributes(blacklist) => RemoveAttributes(blacklist, n)
    case TrackerRemoval => RemoveImageTraker(n)
    case BlacklistedLinks(isBlacklisted) => RemoveBlacklistedLinks(isBlacklisted, rt, n)
    case Externalize => ExternalizeLinks(n)
    case Rebase(baseURL) => RebaseSrcAttribute(baseURL, rt, n)
    case Move(attr1, attr2) => MoveAttribute(attr1, attr2, n)
  }

  /**
    Reference definition of a node's pass through a chain: each filter gets
    what the previous one returned, and the first `null` ends the pass.
   */
  function Pipeline(rt: Runtime, filters: seq<Filter>, n: Node): Option<Node>
    decreases |filters|
  {
    if |filters| == 0 then Some(n)
    else
      match ApplyFilter(rt, filters[0], n)
      case None => None
      case Some(m) => Pipeline(rt, filters[1..], m)
  }

  /** A pass through a concatenation is the pass through the first part, then, if the node survived, the second. */
  lemma {:induction false} PipelineAppend(rt: Runtime, a: seq<Filter>, b: seq<Filter>, n: Node)
    ensures Pipeline(rt, a + b, n) ==
      match Pipeline(rt, a, n)
      case None => None
      case Some(m) => Pipeline(rt, b, m)
    decreases |a|
  {
    if |a| == 0 {
      assert a + b == b;
    } else {
      assert (a + b)[0] == a[0];
      assert (a + b)[1..] == a[1..] + b;
      match ApplyFilter(rt, a[0], n)
      case None =>
      case Some(m) => PipelineAppend(rt, a[1..], b, m);
    }
  }

  /** Once a filter returns `null`, the filters after it never see the node. */
  lemma LaterFiltersNeverRun(rt: Runtime, a: seq<Filter>, b: seq<Filter>, n: Node)
    requires Pipeline(rt, a, n).None?
    ensures Pipeline(rt, a + b, n).None?
  {
    PipelineAppend(rt, a, b, n);
  }

  /**
    A pass ends in `null` exactly when some filter returns `null` on the node
    the filters before it produced.
   */
  lemma {:induction false} PipelineNullAtFirstNull(rt: Runtime, filters: seq<Filter>, n: Node)
    ensures Pipeline(rt, filters, n).None? <==>
      exists i :: 0 <= i < |filters| && Pipeline(rt, filters[..i], n).Some?
        && ApplyFilter(rt, filters[i], Pipeline(rt, filters[..i], n).value).None?
    decreases |filters|
  {
    if |filters| > 0 {
      var f := filters[0];
      var rest := filters[1..];
      assert filters[..0] == [];
      match ApplyFilter(rt, f, n)
      case None =>
        assert Pipeline(rt, filters[..0], n) == Some(n);
      case Some(m) =>
        PipelineNullAtFirstNull(rt, rest, m);
        forall i | 0 <= i < |rest|
          ensures Pipeline(rt, filters[..i + 1], n) == Pipeline(rt, rest[..i], m)
        {
          assert filters[..i + 1] == [f] + rest[..i];
          assert ([f] + rest[..i])[0] == f;
          assert ([f] + rest[..i])[1..] == rest[..i];
        }
        if Pipeline(rt, filters, n).None? {
          var j :| 0 <= j < |rest| && Pipeline(rt, rest[..j], m).Some?
            && ApplyFilter(rt, rest[j], Pipeline(rt, rest[..j], m).value).None?;
          assert filters[j + 1] == rest[j];
        } else {
          forall i | 0 <= i < |filters| && Pipeline(rt, filters[..i], n).Some?
            ensures ApplyFilter(rt, filters[i], Pipeline(rt, filters[..i], n).value).Some?
          {
            if i > 0 {
              assert filters[i] == rest[i - 1];
            }
          }
        }
    }
  }

  /** The loop of `clean` over one node's filters, with its early `break`. */
  method RunFilters(rt: Runtime, filters: seq<Filter>, node: Node) returns (r: Option<Node>)
    ensures r == Pipeline(rt, filters, node)
  {
    var current := node;
    var i := 0;
    while i < |filters|
      invariant 0 <= i <= |filters|
      invariant Pipeline(rt, filters, node) == Pipeline(rt, filters[i..], current)
    {
      assert filters[i..][0] == filters[i];
      assert filters[i..][1..] == filters[i + 1..];
      var next := ApplyFilter(rt, filters[i], current);
      if next.None? {
        return None;
      }
      current := next.value;
      i := i + 1;
    }
    return Some(current);
  }

  /** The tag names `clean` leaves alone: any containing HTML, HEAD, BODY, META, LINK or STYLE. */
  predicate IsSkipped(tagName: string) {
    || Includes(tagName, "HTML")
    || Includes(tagName, "HEAD")
    || Includes(tagName, "BODY")
    || Includes(tagName, "META")
    || Includes(tagName, "LINK")
    || Includes(tagName, "STYLE")
  }

  /** The skip test is an unanchored match: table sections and `BLINK` are skipped along with `HEAD`. */
  lemma SkipIsSubstringMatch()
    ensures IsSkipped("HEAD") && IsSkipped("THEAD") && IsSkipped("TBODY") && IsSkipped("BLINK")
  {
    assert StartsWith("HEAD", "HEAD");
    assert StartsWith("THEAD"[1..], "HEAD");
    assert StartsWith("TBODY"[1..], "BODY");
    assert StartsWith("BLINK"[1..], "LINK");
  }

  /** A string that contains `part` still contains it with anything put in front. */
  lemma {:induction false} IncludesAfterPrefix(p: string, s: string, part: string)
    requires Includes(s, part)
    ensures Includes(p + s, part)
    decreases |p|
  {
    if |p| == 0 {
      assert p + s == s;
    } else {
      assert (p + s)[1..] == p[1..] + s;
      IncludesAfterPrefix(p[1..], s, part);
    }
  }

  /** A string that contains `part` still contains it with anything put after it. */
  lemma {:induction false} IncludesBeforeSuffix(s: string, q: string, part: string)
    requires Includes(s, part)
    ensures Includes(s + q, part)
    decreases |s|
  {
    if StartsWith(s, part) {
      assert (s + q)[..|part|] == s[..|part|];
    } else {
      assert (s + q)[1..] == s[1..] + q;
      IncludesBeforeSuffix(s[1..], q, part);
    }
  }

  /**
    The skip test is unanchored: a skipped tag name stays skipped whatever is
    put before or after it.
   */
  lemma SkippedNamesStaySkipped(p: string, tagName: string, q: string)
    requires IsSkipped(tagName)
    ensures IsSkipped(p + tagName + q)
  {
    forall w | Includes(tagName, w)
      ensures Includes(p + tagName + q, w)
    {
      IncludesAfterPrefix(p, tagName, w);
      IncludesBeforeSuffix(p + tagName, q, w);
    }
  }

  /** A string never contains a longer one. */
  lemma {:induction false} IncludesNeedsLength(s: string, part: string)
    requires Includes(s, part)
    ensures |part| <= |s|
    decreases |s|
  {
    if !StartsWith(s, part) {
      IncludesNeedsLength(s[1..], part);
    }
  }

  /** Content elements with short names are cleaned. */
  lemma ContentTagsAreCleaned()
    ensures !IsSkipped("DIV") && !IsSkipped("IMG") && !IsSkipped("A") && !IsSkipped("SPAN")
  {
    var words := ["HTML", "HEAD", "BODY", "META", "LINK", "STYLE"];
    forall s, w | s in ["DIV", "IMG", "A"] && w in words
      ensures !Includes(s, w)
    {
      if Includes(s, w) {
        IncludesNeedsLength(s, w);
      }
    }
    forall w | w in words
      ensures !Includes("SPAN", w)
    {
      if Includes("SPAN"[1..], w) {
        IncludesNeedsLength("SPAN"[1..], w);
      }
      assert |w| > 4 || w[0] != 'S';
      assert !StartsWith("SPAN", w);
    }
  }

  /** The `DefaultFilterChain` array as the module first creates it. */
  const DefaultFilterChain: seq<Filter> := [StripAttributes(["id", "class"]), TrackerRemoval, Externalize]

  /** The properties `clean` reads; the host check sits under the key `isBacklisted`. */
  datatype CleanupProps = CleanupProps(baseURL: JsStr, isBacklisted: Option<string -> bool>)

  /**
    The arrays around one call of `clean`: the module's default array
    afterwards, the array passed as `filters` afterwards (the default array
    itself when none was passed), and the chain actually run.
   */
  datatype ChainSetup = ChainSetup(defaultChain: seq<Filter>, argument: seq<Filter>, applied: seq<Filter>)

  /**
    How `clean` prepares its chain: the rebaser is pushed onto the array it
    was given (the shared default array when none was given) and the
    blacklist filter is put in front of a fresh copy.
   */
  function PrepareChain(defaultChain: seq<Filter>, props: CleanupProps, filters: Option<seq<Filter>>): (s: ChainSetup)
    ensures var given := if filters.Some? then filters.value else defaultChain;
      && |s.argument| == |given| + (if Truthy(props.baseURL) then 1 else 0)
      && s.argument[..|given|] == given
      && (Truthy(props.baseURL) ==> s.argument[|given|] == Rebase(props.baseURL.s))
    ensures filters.None? ==> s.defaultChain == s.argument
    ensures filters.Some? ==> s.defaultChain == defaultChain
    ensures props.isBacklisted.Some? ==> s.applied == [BlacklistedLinks(props.isBacklisted.value)] + s.argument
    ensures props.isBacklisted.None? ==> s.applied == s.argument
  {
    var arr := if filters.Some? then filters.value else defaultChain;
    var arr := if Truthy(props.baseURL) then arr + [Rebase(props.baseURL.s)] else arr;
    var applied := if props.isBacklisted.Some? then [BlacklistedLinks(props.isBacklisted.value)] + arr else arr;
    ChainSetup(if filters.None? then arr else defaultChain, arr, applied)
  }

  /**
    `clean`: every element of the document, in order, is left alone when
    its tag name is skipped and otherwise passed through the prepared chain;
    `None` marks an element that was removed.
   */
  method Clean(rt: Runtime, defaultChain: seq<Filter>, props: CleanupProps, filters: Option<seq<Filter>>, elements: seq<Node>)
    returns (setup: ChainSetup, results: seq<Option<Node>>)
    ensures setup == PrepareChain(defaultChain, props, filters)
    ensures |results| == |elements|
    ensures forall i :: 0 <= i < |elements| ==>
      results[i] == (if IsSkipped(elements[i].nodeName) then Some(elements[i]) else Pipeline(rt, setup.applied, elements[i]))
  {
    setup := PrepareChain(defaultChain, props, filters);
    results := [];
    var k := 0;
    while k < |elements|
      invariant 0 <= k <= |elements|
      invariant |results| == k
      invariant forall i :: 0 <= i < k ==>
        results[i] == (if IsSkipped(elements[i].nodeName) then Some(elements[i]) else Pipeline(rt, setup.applied, elements[i]))
    {
      var node := elements[k];
      var r;
      if IsSkipped(node.nodeName) {
        r := Some(node);
      } else {
        r := RunFilters(rt, setup.applied, node);
      }
      results := results + [r];
      k := k + 1;
    }
  }

  /**
    Calls that rely on the default array share it: each call with a truthy
    base URL pushes one more rebaser, so a second call runs the first call's
    rebaser too.
   */
  lemma DefaultChainAccumulates(props1: CleanupProps, props2: CleanupProps)
    requires Truthy(props1.baseURL) && Truthy(props2.baseURL)
    ensures var first := PrepareChain(DefaultFilterChain, props1, None);
      var second := PrepareChain(first.defaultChain, props2, None);
      && second.defaultChain == DefaultFilterChain + [Rebase(props1.baseURL.s), Rebase(props2.baseURL.s)]
      && second.argument == second.defaultChain
  {
    var first := PrepareChain(DefaultFilterChain, props1, None);
    var second := PrepareChain(first.defaultChain, props2, None);
    assert second.argument == second.argument[..|first.defaultChain|] + [Rebase(props2.baseURL.s)];
  }

  /** The default chain lets every node but an attached tracking pixel through, with its `src` unchanged. */
  lemma DefaultPipelineKeepsSrc(rt: Runtime, n: Node)
    requires !(IsTrackerPixel(n) && n.hasParent)
    ensures Pipeline(rt, DefaultFilterChain, n).Some?
    ensures GetAttribute(Pipeline(rt, DefaultFilterChain, n).value, "src") == GetAttribute(n, "src")
  {
    var n1 := RemoveAttributes(["id", "class"], n).value;
    assert IsTrackerPixel(n1) == IsTrackerPixel(n);
    var n2 := ExternalizeLinks(n1).value;
    assert Pipeline(rt, DefaultFilterChain, n) == Some(n2);
  }

  /**
    A consequence of the shared default array: on a second call, a relative
    `src` is rebased against the FIRST call's base URL, and the second call's
    own rebaser then finds it already absolute.
   */
  lemma SecondCallUsesFirstBase(rt: Runtime, props1: CleanupProps, props2: CleanupProps, n: Node)
    requires Truthy(props1.baseURL) && Truthy(props2.baseURL) && props2.isBacklisted.None?
    requires !(IsTrackerPixel(n) && n.hasParent)
    requires HasAttribute(n, "src") && n.attributes["src"] != "" && !IsAbsoluteHttp(n.attributes["src"])
    requires IsAbsoluteHttp(rt.resolve(props1.baseURL.s, n.attributes["src"]))
    ensures var first := PrepareChain(DefaultFilterChain, props1, None);
      var second := PrepareChain(first.defaultChain, props2, None);
      var r := Pipeline(rt, second.applied, n);
      r.Some? && GetAttribute(r.value, "src") == Str(rt.resolve(props1.baseURL.s, n.attributes["src"]))
  {
    DefaultChainAccumulates(props1, props2);
    var first := PrepareChain(DefaultFilterChain, props1, None);
    var second := PrepareChain(first.defaultChain, props2, None);
    var rebasers := [Rebase(props1.baseURL.s), Rebase(props2.baseURL.s)];
    assert second.applied == DefaultFilterChain + rebasers;
    PipelineAppend(rt, DefaultFilterChain, rebasers, n);
    DefaultPipelineKeepsSrc(rt, n);
    var m := Pipeline(rt, DefaultFilterChain, n).value;
    var m1 := RebaseSrcAttribute(props1.baseURL.s, rt, m).value;
    assert GetAttribute(m1, "src") == Str(rt.resolve(props1.baseURL.s, n.attributes["src"]));
    var m2 := RebaseSrcAttribute(props2.baseURL.s, rt, m1).value;
    assert rebasers[1..] == [Rebase(props2.baseURL.s)];
    assert Pipeline(rt, rebasers[1..], m1) == Pipeline(rt, [], m2);
    assert Pipeline(rt, rebasers, m) == Some(m2);
  }

  /**
    The older externalizer sets only `target`; the sanitizer's also sets
    `rel`, and otherwise they agree.
   */
  lemma ExternalizersDiffer(n: Node)
    requires IsLink(n)
    ensures GetAttribute(ExternalizeLinks(n).value, "rel") == GetAttribute(n, "rel")
    ensures Sanitize.ExternalizeLinks(n)
         == SetAttribute(ExternalizeLinks(n).value, "rel", "noopener noreferrer")
  {
  }

  /**
    On an element, the older blacklist filter returns `null` exactly when
    the sanitizer's blocked-host filter, given the same predicate, detaches it.
   */
  lemma HostFiltersAgree(isBlocked: string -> bool, rt: Runtime, n: Node)
    requires n.nodeType == ELEMENT_NODE
    ensures RemoveBlacklistedLinks(isBlocked, rt, n).None?
        <==> n.hasParent && !Sanitize.RemoveBlockedHostLinks(isBlocked, rt, n).hasParent
  {
  }
}

=== FILE: helpers.dfy ===
/**
  Metadata extraction from a parsed document: the `<base href>`, the Open
  Graph properties of the head, and the inventory of images.
 */
module Helpers {
  import opened Wrappers
  import opened Js
  import opened Dom
  import opened NodeRuntime

  /**
    A parsed document, as the extractors see it: the elements of its head in
    document order (`None` when `doc.head` is null) and all of its elements
    in document order.
   */
  datatype Doc = Doc(head: Option<seq<Node>>, elements: seq<Node>)

  /** The Open Graph properties: a plain object from property name to value. */
  type OgProps = map<string, JsStr>

  /** An entry of the image inventory. */
  datatype ImageMeta = ImageMeta(src: string, contentType: string)

  /** `isElementNode`: the node is an element. */
  predicate IsElementNode(n: Node): (r: bool)
    ensures r <==> TagName(n).Str?
  {
    n.nodeType == 1
  }

  /** `isValidUrl(v)`: `new URL(v)` succeeds on the string the value converts to. */
  predicate IsValidUrl(rt: Runtime, v: JsStr): (r: bool)
    ensures v.Str? ==> (r <==> rt.urlAccepts(v.s))
    ensures v == Undefined ==> (r <==> rt.urlAccepts("undefined"))
    ensures v == Null ==> (r <==> rt.urlAccepts("null"))
  {
    rt.urlAccepts(ToJsString(v))
  }

  /** Reading `obj[key]`: `undefined` for a key the object does not have. */
  function Get(m: OgProps, key: string): JsStr {
    if key in m then m[key] else Undefined
  }

  // ---------------------------------------------------------------------
  // extractBaseUrl
  // ---------------------------------------------------------------------

  /** `i` is the position of the first node named `name` in `nodes`. */
  ghost predicate FirstNamedAt(nodes: seq<Node>, name: string, i: int) {
    && 0 <= i < |nodes|
    && nodes[i].nodeName == name
    && forall j :: 0 <= j < i ==> nodes[j].nodeName != name
  }

  /** The position of the first node named `name` in `nodes`, if any. */
  function FirstNamedIndex(nodes: seq<Node>, name: string): (r: Option<nat>)
    ensures r.None? <==> forall j :: 0 <= j < |nodes| ==> nodes[j].nodeName != name
    ensures r.Some? ==> FirstNamedAt(nodes, name, r.value)
  {
    if |nodes| == 0 then None
    else if nodes[0].nodeName == name then Some(0)
    else
      match FirstNamedIndex(nodes[1..], name)
      case None => None
      case Some(i) => Some(i + 1)
  }

  /** `getElementsByTagName(name)[0]`: the first node named `name`, if any. */
  function FirstNamed(nodes: seq<Node>, name: string): Option<Node> {
    match FirstNamedIndex(nodes, name)
    case None => None
    case Some(i) => Some(nodes[i])
  }

  /** The protocol-relative fix: a value starting with `//` gets `http:` in front. */
  function WithScheme(href: string): string {
    if StartsWith(href, "//") then "http:" + href else href
  }

  /**
    `extractBaseUrl`: the `href` of the first `<base>` of the head, with the
    protocol-relative fix, when the result is a valid URL; otherwise null.
   */
  function ExtractBaseUrl(rt: Runtime, doc: Doc): (r: Option<string>)
    ensures doc.head.None? ==> r.None?
    ensures r.Some? ==>
      && doc.head.Some?
      && exists i :: FirstNamedAt(doc.head.value, "BASE", i)
           && HasAttribute(doc.head.value[i], "href")
           && r.value == WithScheme(doc.head.value[i].attributes["href"])
    ensures r.Some? ==> rt.urlAccepts(r.value)
    ensures doc.head.Some? ==>
      forall i :: FirstNamedAt(doc.head.value, "BASE", i)
        && HasAttribute(doc.head.value[i], "href")
        && rt.urlAccepts(WithScheme(doc.head.value[i].attributes["href"]))
        ==> r.Some?
  {
    if doc.head.None? then None
    else
      match FirstNamed(doc.head.value, "BASE")
      case None => None
      case Some(base) =>
        if HasAttribute(base, "href") then
          var baseUrl := WithScheme(ToJsString(Or(GetAttribute(base, "href"), Str(""))));
          if rt.urlAccepts(baseUrl) then Some(baseUrl) else None
        else None
  }

  /** Only the first `<base>` of the head is consulted: what follows it never matters. */
  lemma OnlyFirstBaseCounts(rt: Runtime, before: seq<Node>, base: Node, after1: seq<Node>, after2: seq<Node>,
                            elements1: seq<Node>, elements2: seq<Node>)
    requires forall j :: 0 <= j < |before| ==> before[j].nodeName != "BASE"
    requires base.nodeName == "BASE"
    ensures ExtractBaseUrl(rt, Doc(Some(before + [base] + after1), elements1))
         == ExtractBaseUrl(rt, Doc(Some(before + [base] + after2), elements2))
  {
    var h1 := before + [base] + after1;
    var h2 := before + [base] + after2;
    assert FirstNamedAt(h1, "BASE", |before|);
    assert FirstNamedAt(h2, "BASE", |before|);
    FirstNamedIsUnique(h1, "BASE", |before|);
    FirstNamedIsUnique(h2, "BASE", |before|);
  }

  lemma FirstNamedIsUnique(nodes: seq<Node>, name: string, i: int)
    requires FirstNamedAt(nodes, name, i)
    ensures FirstNamed(nodes, name) == Some(nodes[i])
  {
  }

  /** A protocol-relative `<base href="//host/">` yields `http://host/`, never a value starting with `//`. */
  lemma BaseUrlHasScheme(rt: Runtime, doc: Doc)
    ensures var r := ExtractBaseUrl(rt, doc);
      r.Some? ==> !StartsWith(r.value, "//")
  {
    var r := ExtractBaseUrl(rt, doc);
    if r.Some? {
      var i :| FirstNamedAt(doc.head.value, "BASE", i)
           && HasAttribute(doc.head.value[i], "href")
           && r.value == WithScheme(doc.head.value[i].attributes["href"]);
      var href := doc.head.value[i].attributes["href"];
      if StartsWith(href, "//") {
        assert r.value[..2] == "ht";
      }
    }
  }

  // ---------------------------------------------------------------------
  // extractOpenGraphProps
  // ---------------------------------------------------------------------

  /** The property name an Open Graph meta tag sets: its `property` attribute minus the `og:` prefix. */
  function OgKey(meta: Node): Option<string> {
    var attr := GetAttribute(meta, "property");
    if attr.Str? && StartsWith(attr.s, "og:") then Some(attr.s[3..]) else None
  }

  /** One iteration of the scan: record the meta's content, then null an invalid `url`. */
  function OgStep(rt: Runtime, acc: OgProps, meta: Node): (r: OgProps)
    ensures forall k :: k != "url" && OgKey(meta) == Some(k) ==> Get(r, k) == GetAttribute(meta, "content")
    ensures forall k :: k != "url" && OgKey(meta) != Some(k) ==> Get(r, k) == Get(acc, k)
    ensures Get(r, "url") == Null || IsValidUrl(rt, Get(r, "url"))
    ensures var url := if OgKey(meta) == Some("url") then GetAttribute(meta, "content") else Get(acc, "url");
      Get(r, "url") == if IsValidUrl(rt, url) then url else Null
  {
    var acc := if OgKey(meta).Some? then acc[OgKey(meta).value := GetAttribute(meta, "content")] else acc;
    if !IsValidUrl(rt, Get(acc, "url")) then acc["url" := Null] else acc
  }

  /** The loop over the head's meta tags, in document order. */
  function ScanMetas(rt: Runtime, acc: OgProps, metas: seq<Node>): (r: OgProps)
    ensures |metas| > 0 ==> Get(r, "url") == Null || IsValidUrl(rt, Get(r, "url"))
    ensures forall k :: k != "url" && (forall j :: 0 <= j < |metas| ==> OgKey(metas[j]) != Some(k)) ==> Get(r, k) == Get(acc, k)
    decreases |metas|
  {
    if |metas| == 0 then acc else ScanMetas(rt, OgStep(rt, acc, metas[0]), metas[1..])
  }

  /** `head.getElementsByTagName('meta')`. */
  function Metas(nodes: seq<Node>): (r: seq<Node>)
    ensures forall j :: 0 <= j < |r| ==> r[j].nodeName == "META"
    ensures |r| <= |nodes|
  {
    if |nodes| == 0 then []
    else if nodes[0].nodeName == "META" then [nodes[0]] + Metas(nodes[1..])
    else Metas(nodes[1..])
  }

  /** One node is listed exactly when it is a `META`. */
  lemma MetasOfOne(n: Node)
    ensures Metas([n]) == if n.nodeName == "META" then [n] else []
  {
  }

  /** Document order is kept: the metas of a concatenation are the concatenation of the metas. */
  lemma {:induction false} MetasAppend(a: seq<Node>, b: seq<Node>)
    ensures Metas(a + b) == Metas(a) + Metas(b)
    decreases |a|
  {
    if |a| == 0 {
      assert a + b == b;
    } else {
      assert (a + b)[0] == a[0];
      assert (a + b)[1..] == a[1..] + b;
      MetasAppend(a[1..], b);
    }
  }

  /** Every `META` of the input is listed. */
  lemma {:induction false} MetasAreComplete(nodes: seq<Node>, i: int)
    requires 0 <= i < |nodes| && nodes[i].nodeName == "META"
    ensures nodes[i] in Metas(nodes)
  {
    assert nodes == nodes[..i] + [nodes[i]] + nodes[i + 1..];
    MetasAppend(nodes[..i] + [nodes[i]], nodes[i + 1..]);
    MetasAppend(nodes[..i], [nodes[i]]);
    MetasOfOne(nodes[i]);
  }

  /** `extractOpenGraphProps`: `{}` without a head, otherwise the scan of the head's meta tags. */
  function ExtractOpenGraphProps(rt: Runtime, doc: Doc): (r: OgProps)
    ensures doc.head.None? ==> r == map[]
  {
    if doc.head.None? then map[] else ScanMetas(rt, map[], Metas(doc.head.value))
  }

  /**
    Reference definition: the content of the LAST meta tag that sets `key`,
    `undefined` when none does.
   */
  function LastOgContent(metas: seq<Node>, key: string): JsStr
    decreases |metas|
  {
    if |metas| == 0 then Undefined
    else if OgKey(metas[|metas| - 1]) == Some(key) then GetAttribute(metas[|metas| - 1], "content")
    else LastOgContent(metas[..|metas| - 1], key)
  }

  lemma {:induction false} ScanMetasSnoc(rt: Runtime, acc: OgProps, metas: seq<Node>, m: Node)
    ensures ScanMetas(rt, acc, metas + [m]) == OgStep(rt, ScanMetas(rt, acc, metas), m)
    decreases |metas|
  {
    if |metas| == 0 {
      assert metas + [m] == [m];
    } else {
      assert (metas + [m])[1..] == metas[1..] + [m];
      ScanMetasSnoc(rt, OgStep(rt, acc, metas[0]), metas[1..], m);
    }
  }

  /**
    Later duplicates overwrite earlier ones: every property holds the content
    of the last meta that sets it, and after at least one meta the `url`
    holds the last `og:url` content if that is a valid URL, and null otherwise.
   */
  lemma {:induction false} OgPropsAreLastValues(rt: Runtime, metas: seq<Node>, key: string)
    ensures key != "url" ==> Get(ScanMetas(rt, map[], metas), key) == LastOgContent(metas, key)
    ensures |metas| > 0 ==>
      var last := LastOgContent(metas, "url");
      Get(ScanMetas(rt, map[], metas), "url") == (if IsValidUrl(rt, last) then last else Null)
    decreases |metas|
  {
    if |metas| > 0 {
      var p := metas[..|metas| - 1];
      var m := metas[|metas| - 1];
      assert metas == p + [m];
      ScanMetasSnoc(rt, map[], p, m);
      OgPropsAreLastValues(rt, p, key);
      OgPropsAreLastValues(rt, p, "url");
    }
  }

  /**
    When `new URL("undefined")` fails, as it does for the WHATWG parser, the
    `url` property of a head with at least one meta tag is null or a valid URL.
   */
  lemma OgUrlIsValidOrNull(rt: Runtime, doc: Doc)
    requires !rt.urlAccepts("undefined")
    requires doc.head.Some? && |Metas(doc.head.value)| > 0
    ensures var url := Get(ExtractOpenGraphProps(rt, doc), "url");
      url == Null || (url.Str? && rt.urlAccepts(url.s))
  {
    OgPropsAreLastValues(rt, Metas(doc.head.value), "url");
  }

  // ---------------------------------------------------------------------
  // extractImages
  // ---------------------------------------------------------------------

  /** `mime.lookup(path) || ''`. */
  function ContentType(rt: Runtime, path: string): string {
    match rt.lookup(path)
    case Some(t) => t
    case None => ""
  }

  /** The regular expression `/^data:/i`. */
  predicate IsDataUri(src: string) {
    StartsWithIgnoreCase(src, "data:")
  }

  /** An `<img>` the inventory keeps: it has a non-empty `src` that is not a data URI. */
  predicate KeptImage(n: Node) {
    n.nodeName == "IMG" && HasAttribute(n, "src") && n.attributes["src"] != "" && !IsDataUri(n.attributes["src"])
  }

  /** The loop over `doc.getElementsByTagName('img')`, in document order. */
  function DocumentImages(rt: Runtime, nodes: seq<Node>): (r: seq<ImageMeta>)
    ensures |r| <= |nodes|
    ensures forall i :: 0 <= i < |r| ==> r[i].src != "" && !IsDataUri(r[i].src)
    ensures forall i :: 0 <= i < |r| ==> r[i].contentType == ContentType(rt, r[i].src)
  {
    if |nodes| == 0 then []
    else
      var n := nodes[0];
      var rest := DocumentImages(rt, nodes[1..]);
      if n.nodeName == "IMG" && HasAttribute(n, "src") then
        var src := GetAttribute(n, "src");
        if Truthy(src) && !IsDataUri(src.s) then [ImageMeta(src.s, ContentType(rt, src.s))] + rest else rest
      else rest
  }

  /** One node contributes its own entry exactly when it is a kept image. */
  lemma DocumentImagesOfOne(rt: Runtime, n: Node)
    ensures DocumentImages(rt, [n])
         == if KeptImage(n) then [ImageMeta(n.attributes["src"], ContentType(rt, n.attributes["src"]))] else []
  {
  }

  /** Document order is kept: the inventory of a concatenation is the concatenation of the inventories. */
  lemma {:induction false} DocumentImagesAppend(rt: Runtime, a: seq<Node>, b: seq<Node>)
    ensures DocumentImages(rt, a + b) == DocumentImages(rt, a) + DocumentImages(rt, b)
    decreases |a|
  {
    if |a| > 0 {
      assert (a + b)[0] == a[0];
      assert (a + b)[1..] == a[1..] + b;
      DocumentImagesAppend(rt, a[1..], b);
      var head := DocumentImages(rt, [a[0]]);
      assert DocumentImages(rt, a) == head + DocumentImages(rt, a[1..]);
      assert DocumentImages(rt, a + b) == head + DocumentImages(rt, a[1..] + b);
    } else {
      assert a + b == b;
    }
  }

  /** Elements other than `<img>` contribute nothing to the inventory. */
  lemma {:induction false} NoImagesWithoutImg(rt: Runtime, nodes: seq<Node>)
    requires forall j :: 0 <= j < |nodes| ==> nodes[j].nodeName != "IMG"
    ensures DocumentImages(rt, nodes) == []
    decreases |nodes|
  {
    if |nodes| > 0 {
      NoImagesWithoutImg(rt, nodes[1..]);
    }
  }

  /**
    `extractImages`: a truthy illustration first, unvalidated, then the
    document's images in order.
   */
  function ExtractImages(rt: Runtime, doc: Doc, illustration: JsStr): (r: seq<ImageMeta>)
    ensures Truthy(illustration) ==> |r| > 0 && r[0] == ImageMeta(illustration.s, ContentType(rt, illustration.s))
    ensures var offset := if Truthy(illustration) then 1 else 0;
      |r| >= offset && r[offset..] == DocumentImages(rt, doc.elements)
  {
    var result := if Truthy(illustration) then [ImageMeta(illustration.s, ContentType(rt, illustration.s))] else [];
    result + DocumentImages(rt, doc.elements)
  }
}

=== FILE: htmlgrabr.dfy ===
/**
  The grabber: its configuration, the pure part of `grab` (effective base
  URL, metadata, sanitization, result assembly) and the status check of
  `grabUrl`. Parsing, main-content extraction, the sanitizing engine,
  pretty-printing and fetching are functions passed in.
 */
module HtmlGrabr {
  import opened Wrappers
  import opened Js
  import opened Dom
  import opened NodeRuntime
  import opened Helpers
  import Sanitize
  import Blacklist

  /** Request headers, by name. */
  type Headers = map<string, string>

  const DefaultHeaders: Headers := map["User-Agent" := "Mozilla/5.0 (compatible; HTMLGrabr/1.0)"]

  /**
    One field of the object a caller passes to the constructor: absent, or
    present with a value that may be `undefined` (`Given(None)`).
   */
  datatype Field<T> = Absent | Given(value: Option<T>)

  datatype CallerConfig = CallerConfig(
    debug: Field<bool>,
    pretty: Field<bool>,
    isBlacklisted: Field<string -> bool>,
    rewriteURL: Field<string -> string>,
    headers: Field<Headers>)

  /** `GrabberConfig` after the merge; `None` is `undefined`. */
  datatype GrabberConfig = GrabberConfig(
    debug: Option<bool>,
    pretty: Option<bool>,
    isBlacklisted: Option<string -> bool>,
    rewriteURL: Option<string -> string>,
    headers: Option<Headers>)

  /** `DefaultConfig`. */
  const DefaultConfig: GrabberConfig :=
    GrabberConfig(Some(false), Some(false), Some(Blacklist.IsBlacklisted), None, Some(DefaultHeaders))

  /** One field of `{ ...defaults, ...config }`: a key the caller wrote wins, even with `undefined`. */
  function Override<T>(default: Option<T>, given: Field<T>): Option<T> {
    match given
    case Absent => default
    case Given(v) => v
  }

  /** The constructor's `{ ...DefaultConfig, ...config }`, field by field. */
  function MergeConfig(caller: CallerConfig): (cfg: GrabberConfig)
    ensures caller.debug.Absent? ==> cfg.debug == Some(false)
    ensures caller.pretty.Absent? ==> cfg.pretty == Some(false)
    ensures caller.isBlacklisted.Absent? ==> cfg.isBlacklisted == Some(Blacklist.IsBlacklisted)
    ensures caller.rewriteURL.Absent? ==> cfg.rewriteURL.None?
    ensures caller.headers.Absent? ==> cfg.headers == Some(DefaultHeaders)
    ensures caller.debug.Given? ==> cfg.debug == caller.debug.value
    ensures caller.pretty.Given? ==> cfg.pretty == caller.pretty.value
    ensures caller.isBlacklisted.Given? ==> cfg.isBlacklisted == caller.isBlacklisted.value
    ensures caller.rewriteURL.Given? ==> cfg.rewriteURL == caller.rewriteURL.value
    ensures caller.headers.Given? ==> cfg.headers == caller.headers.value
  {
    GrabberConfig(
      Override(DefaultConfig.debug, caller.debug),
      Override(DefaultConfig.pretty, caller.pretty),
      Override(DefaultConfig.isBlacklisted, caller.isBlacklisted),
      Override(DefaultConfig.rewriteURL, caller.rewriteURL),
      Override(DefaultConfig.headers, caller.headers))
  }

  /** `new HTMLGrabr()`: no debug output, no pretty-printing, and a User-Agent header. */
  lemma NoArgumentKeepsDefaults()
    ensures var cfg := MergeConfig(CallerConfig(Absent, Absent, Absent, Absent, Absent));
      && cfg == DefaultConfig
      && cfg.debug != Some(true)
      && cfg.headers.Some? && "User-Agent" in cfg.headers.value
  {
  }

  /** The main-content extractor's output. */
  datatype Article = Article(title: string, content: string, textContent: string, excerpt: string, length: int)

  /** The external collaborators of `grab`. */
  datatype Externals = Externals(
    /** `new JSDOM(content, { url }).window.document`; `None` when the constructor throws on a `url` it cannot parse. */
    parse: (string, JsStr) -> Option<Doc>,
    /** `new Readability(doc).parse()`; `None` for `null`. */
    readability: Doc -> Option<Article>,
    /** The sanitizing engine behind `sanitize`. */
    purify: Sanitize.Purifier,
    /** `pretty(html, { ocd: true })`. */
    pretty: string -> string)

  /** `GrabbedPage`. */
  datatype GrabbedPage = GrabbedPage(
    title: string,
    url: JsStr,
    image: JsStr,
    html: string,
    text: string,
    excerpt: string,
    length: int,
    images: seq<ImageMeta>)

  /**
    Why a grab rejects: a non-ok response, a base URL the parser's `url`
    option refuses, or an extractor that found no article (`article.content`
    of `null`).
   */
  datatype GrabError = BadStatus(message: string) | BadBaseUrl | NoArticle

  /** `extractBaseUrl(doc) || baseURL`. */
  function EffectiveBaseUrl(rt: Runtime, doc: Doc, baseURL: JsStr): (r: JsStr)
    ensures ExtractBaseUrl(rt, doc).Some? && ExtractBaseUrl(rt, doc).value != "" ==> r == Str(ExtractBaseUrl(rt, doc).value)
    ensures !(ExtractBaseUrl(rt, doc).Some? && ExtractBaseUrl(rt, doc).value != "") ==> r == baseURL
  {
    var extracted := match ExtractBaseUrl(rt, doc) case Some(b) => Str(b) case None => Null;
    Or(extracted, baseURL)
  }

  /** The object literal `{ baseURL, debug, isBlacklisted, rewriteURL }` that `grab` passes to `sanitize`. */
  function SanitizeArguments(cfg: GrabberConfig, baseURL: JsStr): (bag: Sanitize.PropBag)
    ensures "isBlacklisted" in bag && bag["isBlacklisted"] == Sanitize.HostCheck(cfg.isBlacklisted)
    ensures "isBlockedHost" !in bag && "filters" !in bag
    ensures "baseURL" in bag && bag["baseURL"] == Sanitize.Text(baseURL)
    ensures "rewriteURL" in bag && bag["rewriteURL"] == Sanitize.Rewriter(cfg.rewriteURL)
  {
    map[
      "baseURL" := Sanitize.Text(baseURL),
      "debug" := Sanitize.Flag(cfg.debug),
      "isBlacklisted" := Sanitize.HostCheck(cfg.isBlacklisted),
      "rewriteURL" := Sanitize.Rewriter(cfg.rewriteURL)]
  }

  /** The filter chain `grab`'s call of `sanitize` registers. */
  function GrabChain(cfg: GrabberConfig, baseURL: JsStr): seq<Sanitize.Filter> {
    Sanitize.FilterChain(Sanitize.ReadProps(SanitizeArguments(cfg, baseURL)))
  }

  /**
    The host policy `grab` passes sits under the key `isBlacklisted`, which
    `sanitize` does not read: no blocked-host filter is ever installed, while
    the rewriter and the base URL do reach the chain.
   */
  lemma GrabChainHasNoHostFilter(cfg: GrabberConfig, baseURL: JsStr)
    ensures var chain := GrabChain(cfg, baseURL);
      && (forall i :: 0 <= i < |chain| ==> !chain[i].BlockHosts?)
      && (cfg.rewriteURL.Some? <==> chain[0].Rewrite?)
      && (cfg.rewriteURL.Some? ==> chain[0] == Sanitize.Rewrite(cfg.rewriteURL.value))
      && (Truthy(baseURL) <==> chain[|chain| - 1].Rebase?)
      && (Truthy(baseURL) ==> chain[|chain| - 1] == Sanitize.Rebase(baseURL.s))
  {
    var props := Sanitize.ReadProps(SanitizeArguments(cfg, baseURL));
    assert props.isBlockedHost.None?;
    assert props.rewriteURL == cfg.rewriteURL;
    assert props.baseURL == baseURL;
  }

  /**
    `grab`: parse, take the base URL, the Open Graph properties and the
    images from the whole document, extract the article, sanitize its HTML,
    pretty-print it when configured, and assemble the page.
   */
  function Grab(cfg: GrabberConfig, rt: Runtime, ext: Externals, content: string, baseURL: JsStr): (r: Result<GrabbedPage, GrabError>)
    ensures r.Err? <==> ext.parse(content, baseURL).None? || ext.readability(ext.parse(content, baseURL).value).None?
    ensures ext.parse(content, baseURL).None? ==> r == Err(BadBaseUrl)
    ensures ext.parse(content, baseURL).Some? && ext.readability(ext.parse(content, baseURL).value).None? ==> r == Err(NoArticle)
    ensures r.Ok? ==>
      var doc := ext.parse(content, baseURL).value;
      var og := ExtractOpenGraphProps(rt, doc);
      var article := ext.readability(doc).value;
      && (Truthy(Get(og, "title")) ==> r.value.title == Get(og, "title").s)
      && (!Truthy(Get(og, "title")) ==> r.value.title == article.title)
      && r.value.image == Get(og, "image")
      && (Truthy(Get(og, "url")) ==> r.value.url == Get(og, "url"))
      && (!Truthy(Get(og, "url")) ==> r.value.url == EffectiveBaseUrl(rt, doc, baseURL))
      && r.value.images == ExtractImages(rt, doc, Get(og, "image"))
      && r.value.text == article.textContent
      && r.value.excerpt == article.excerpt
      && r.value.length == article.length
  {
    match ext.parse(content, baseURL)
    case None => Err(BadBaseUrl)
    case Some(doc) =>
      var baseURL := EffectiveBaseUrl(rt, doc, baseURL);
      var ogProps := ExtractOpenGraphProps(rt, doc);
      var images := ExtractImages(rt, doc, Get(ogProps, "image"));
      match ext.readability(doc)
      case None => Err(NoArticle)
      case Some(article) =>
        var html := Sanitize.Sanitize(ext.purify, article.content, Sanitize.ReadProps(SanitizeArguments(cfg, baseURL)));
        var html := if cfg.pretty == Some(true) then ext.pretty(html) else html;
        var title := Or(Get(ogProps, "title"), Str(article.title));
        Ok(GrabbedPage(
          ToJsString(title),
          Or(Get(ogProps, "url"), baseURL),
          Get(ogProps, "image"),
          html,
          article.textContent,
          article.excerpt,
          article.length,
          images))
  }

  /** The page's HTML is the engine's output for the article under `GrabChain`, pretty-printed exactly when configured. */
  lemma GrabHtml(cfg: GrabberConfig, rt: Runtime, ext: Externals, content: string, baseURL: JsStr)
    requires ext.parse(content, baseURL).Some? && ext.readability(ext.parse(content, baseURL).value).Some?
    ensures var doc := ext.parse(content, baseURL).value;
      var sanitized := ext.purify(ext.readability(doc).value.content,
                                  GrabChain(cfg, EffectiveBaseUrl(rt, doc, baseURL)), Sanitize.AddedAttributes);
      Grab(cfg, rt, ext, content, baseURL).value.html == if cfg.pretty == Some(true) then ext.pretty(sanitized) else sanitized
  {
  }

  /** A truthy Open Graph image heads the page's image list. */
  lemma GrabPutsOgImageFirst(cfg: GrabberConfig, rt: Runtime, ext: Externals, content: string, baseURL: JsStr)
    requires ext.parse(content, baseURL).Some? && ext.readability(ext.parse(content, baseURL).value).Some?
    requires Truthy(Get(ExtractOpenGraphProps(rt, ext.parse(content, baseURL).value), "image"))
    ensures var page := Grab(cfg, rt, ext, content, baseURL).value;
      |page.images| > 0 && page.images[0].src == page.image.s
  {
  }

  /**
    When `new URL("undefined")` fails and the head has a meta tag, the page
    URL is a valid Open Graph URL or else the effective base URL.
   */
  lemma GrabUrlIsValidOgUrlOrBase(cfg: GrabberConfig, rt: Runtime, ext: Externals, content: string, baseURL: JsStr)
    requires !rt.urlAccepts("undefined")
    requires ext.parse(content, baseURL).Some? && ext.readability(ext.parse(content, baseURL).value).Some?
    requires var doc := ext.parse(content, baseURL).value; doc.head.Some? && |Metas(doc.head.value)| > 0
    ensures var doc := ext.parse(content, baseURL).value;
      var page := Grab(cfg, rt, ext, content, baseURL).value;
      || (page.url.Str? && page.url.s != "" && rt.urlAccepts(page.url.s))
      || page.url == EffectiveBaseUrl(rt, doc, baseURL)
  {
    OgUrlIsValidOrNull(rt, ext.parse(content, baseURL).value);
  }

  /** The fetch response, as far as `grabUrl` reads it. */
  datatype Response = Response(ok: bool, statusText: string, body: string)

  /** `grabUrl`: a non-ok response rejects with its status text; otherwise the body is grabbed with the URL as base. */
  function GrabUrl(cfg: GrabberConfig, rt: Runtime, ext: Externals, fetch: (string, Option<Headers>) -> Response, url: string)
    : (r: Result<GrabbedPage, GrabError>)
    ensures (r.Err? && r.error.BadStatus?) <==> !fetch(url, cfg.headers).ok
    ensures !fetch(url, cfg.headers).ok ==> r.error.message == "bad status response: " + fetch(url, cfg.headers).statusText
    ensures fetch(url, cfg.headers).ok ==> r == Grab(cfg, rt, ext, fetch(url, cfg.headers).body, Str(url))
  {
    var res := fetch(url, cfg.headers);
    if !res.ok then Err(BadStatus("bad status response: " + res.statusText))
    else Grab(cfg, rt, ext, res.body, Str(url))
  }

  /** A 404 answered with "Not Found" rejects with "bad status response: Not Found". */
  lemma NotFoundRejects(cfg: GrabberConfig, rt: Runtime, ext: Externals, fetch: (string, Option<Headers>) -> Response, url: string)
    requires fetch(url, cfg.headers) == Response(false, "Not Found", "")
    ensures GrabUrl(cfg, rt, ext, fetch, url) == Err(BadStatus("bad status response: Not Found"))
  {
    assert "bad status response: " + "Not Found" == "bad status response: Not Found";
  }

  /** The rewriter of the end-to-end example: it prefixes `https://foo.bar/`. */
  function FooBarRewriter(src: string): string {
    "https://foo.bar/" + src
  }

  /** The configuration of the end-to-end example: pretty-printing and the prefixing rewriter. */
  const ExampleConfig: GrabberConfig :=
    MergeConfig(CallerConfig(Absent, Given(Some(true)), Absent, Given(Some(FooBarRewriter)), Absent))

  const WorldImage: Node := Node(ELEMENT_NODE, "IMG", map["src" := "world.png"], true)

  const TrackerImage: Node := Node(ELEMENT_NODE, "IMG", map["height" := "1", "width" := "1", "src" := "stracker.jpg"], true)

  /** The rewriter reaches the chain of the end-to-end example, and nothing else is prepended or appended. */
  lemma ExampleProps()
    ensures var props := Sanitize.ReadProps(SanitizeArguments(ExampleConfig, Undefined));
      props.rewriteURL == Some(FooBarRewriter) && props.isBlockedHost.None? && !Truthy(props.baseURL)
  {
  }

  /** The chain of the end-to-end example, run on one node. */
  function ApplyChainOf(rt: Runtime, n: Node): Node {
    Sanitize.ApplyChain(rt, GrabChain(ExampleConfig, Undefined), n)
  }

  /** In the end-to-end example, every node is rewritten and then passed through the default chain. */
  lemma ExampleChainIsRewriterOnly(rt: Runtime, n: Node)
    ensures ApplyChainOf(rt, n)
         == Sanitize.ApplyChain(rt, Sanitize.DefaultFilterChain, Sanitize.RewriteSrcAttribute(FooBarRewriter, n))
  {
    ExampleProps();
    Sanitize.RewriterOnlyChain(rt, Sanitize.ReadProps(SanitizeArguments(ExampleConfig, Undefined)), n);
  }

  /** The prefixing rewriter turns the content image's `src` into an absolute URL. */
  lemma ExampleRewritesContentImage()
    ensures Sanitize.RewriteSrcAttribute(FooBarRewriter, WorldImage)
         == Node(ELEMENT_NODE, "IMG", map["src" := "https://foo.bar/world.png"], true)
  {
    assert FooBarRewriter("world.png") == "https://foo.bar/world.png";
    assert WorldImage.attributes["src" := "https://foo.bar/world.png"] == map["src" := "https://foo.bar/world.png"];
  }

  /** The content image of the end-to-end example is rewritten and marked lazy. */
  lemma ExampleChainOnContentImage(rt: Runtime)
    ensures ApplyChainOf(rt, WorldImage)
         == Node(ELEMENT_NODE, "IMG", map["src" := "https://foo.bar/world.png", "loading" := "lazy"], true)
  {
    ExampleChainIsRewriterOnly(rt, WorldImage);
    ExampleRewritesContentImage();
    var world := Node(ELEMENT_NODE, "IMG", map["src" := "https://foo.bar/world.png"], true);
    assert !HasAttribute(world, "id") && !HasAttribute(world, "class") && !IsTrackerPixel(world);
    Sanitize.DefaultChainOnImage(rt, world);
    assert world.attributes["loading" := "lazy"] == map["src" := "https://foo.bar/world.png", "loading" := "lazy"];
  }

  /** Rewriting keeps the tracker a 1x1 image. */
  lemma ExampleRewrittenTrackerIsPixel()
    ensures IsTrackerPixel(Sanitize.RewriteSrcAttribute(FooBarRewriter, TrackerImage))
  {
    var tracker := Sanitize.RewriteSrcAttribute(FooBarRewriter, TrackerImage);
    assert GetAttribute(tracker, "height") == GetAttribute(TrackerImage, "height");
    assert GetAttribute(tracker, "width") == GetAttribute(TrackerImage, "width");
  }

  /** The 1x1 tracker of the end-to-end example is removed. */
  lemma ExampleChainOnTracker(rt: Runtime)
    ensures !ApplyChainOf(rt, TrackerImage).hasParent
  {
    ExampleChainIsRewriterOnly(rt, TrackerImage);
    ExampleRewrittenTrackerIsPixel();
    Sanitize.DefaultChainDetachesTracker(rt, Sanitize.RewriteSrcAttribute(FooBarRewriter, TrackerImage));
  }

  /** The head of the end-to-end example has no `<base>` and no meta tag. */
  lemma ExampleHasNoMetadata(rt: Runtime)
    ensures ExtractBaseUrl(rt, ExampleDoc).None?
    ensures ExtractOpenGraphProps(rt, ExampleDoc) == map[]
  {
    assert Metas(ExampleDoc.head.value) == [];
  }

  /** The two images of the end-to-end example are both kept, in order. */
  lemma ExampleImagesAreKept(rt: Runtime)
    ensures DocumentImages(rt, [WorldImage, TrackerImage])
         == [ImageMeta("world.png", ContentType(rt, "world.png")), ImageMeta("stracker.jpg", ContentType(rt, "stracker.jpg"))]
  {
    DocumentImagesAppend(rt, [WorldImage], [TrackerImage]);
    assert [WorldImage] + [TrackerImage] == [WorldImage, TrackerImage];
    assert LowerAscii("world.png"[0]) != LowerAscii("data:"[0]);
    assert LowerAscii("stracker.jpg"[0]) != LowerAscii("data:"[0]);
    DocumentImagesOfOne(rt, WorldImage);
    DocumentImagesOfOne(rt, TrackerImage);
  }

  /** The inventory of the end-to-end example: both images, in document order, the tracker included. */
  lemma ExampleInventory(rt: Runtime)
    ensures DocumentImages(rt, ExampleDoc.elements)
         == [ImageMeta("world.png", ContentType(rt, "world.png")), ImageMeta("stracker.jpg", ContentType(rt, "stracker.jpg"))]
  {
    var top := ExampleDoc.elements[..6];
    assert ExampleDoc.elements == top + [WorldImage, TrackerImage];
    DocumentImagesAppend(rt, top, [WorldImage, TrackerImage]);
    NoImagesWithoutImg(rt, top);
    ExampleImagesAreKept(rt);
  }

  /**
    The end-to-end example: a document with a title, no `<base>` and no meta
    tags, grabbed without a base URL. The title comes from the article, there
    is no URL and no image, and the inventory, taken from the whole document
    before sanitization, still lists the tracker.
   */
  lemma ExampleGrab(rt: Runtime, ext: Externals, content: string, article: Article)
    requires ext.parse(content, Undefined) == Some(ExampleDoc)
    requires ext.readability(ExampleDoc) == Some(article) && article.title == "Test"
    ensures var r := Grab(ExampleConfig, rt, ext, content, Undefined);
      && r.Ok?
      && r.value.title == "Test"
      && r.value.url == Undefined
      && r.value.image == Undefined
      && r.value.excerpt == article.excerpt
      && r.value.html == ext.pretty(ext.purify(article.content, GrabChain(ExampleConfig, Undefined), ["target"]))
      && r.value.images == [ImageMeta("world.png", ContentType(rt, "world.png")),
                            ImageMeta("stracker.jpg", ContentType(rt, "stracker.jpg"))]
  {
    ExampleHasNoMetadata(rt);
    ExampleInventory(rt);
    GrabHtml(ExampleConfig, rt, ext, content, Undefined);
  }

  /** The parsed document of the end-to-end example. */
  const ExampleDoc: Doc := Doc(
    Some([Node(ELEMENT_NODE, "TITLE", map[], true)]),
    [ Node(ELEMENT_NODE, "HTML", map[], true), Node(ELEMENT_NODE, "HEAD", map[], true),
      Node(ELEMENT_NODE, "TITLE", map[], true), Node(ELEMENT_NODE, "BODY", map[], true),
      Node(ELEMENT_NODE, "P", map[], true), Node(ELEMENT_NODE, "P", map[], true),
      WorldImage, TrackerImage ])
}

=== FILE: js.dfy ===
/**
  The few JavaScript value semantics the core relies on: strings that may be
  `null` or `undefined`, truthiness, `||`, `String(v)`, and the string tests
  the code writes as `startsWith`, `match` and regular expressions.
 */
module Js {

  /** A JavaScript value of type `string | null | undefined`. */
  datatype JsStr = Undefined | Null | Str(s: string)

  /** JavaScript truthiness of such a value: only a non-empty string is truthy. */
  predicate Truthy(v: JsStr) {
    v.Str? && v.s != ""
  }

  /** JavaScript `a || b`. */
  function Or(a: JsStr, b: JsStr): JsStr {
    if Truthy(a) then a else b
  }

  /** JavaScript `String(v)`, the conversion `new URL(v)` applies to its argument. */
  function ToJsString(v: JsStr): string {
    match v
    case Undefined => "undefined"
    case Null => "null"
    case Str(s) => s
  }

  /** `s.startsWith(prefix)`, and the anchored regular expression `^prefix`. */
  predicate StartsWith(s: string, prefix: string) {
    |prefix| <= |s| && s[..|prefix|] == prefix
  }

  /** True when `part` occurs somewhere in `s` (an unanchored regular expression match). */
  predicate Includes(s: string, part: string)
    decreases |s|
  {
    StartsWith(s, part) || (|s| > 0 && Includes(s[1..], part))
  }

  /** ASCII lower-casing, the case folding a non-Unicode `/i` regular expression applies to ASCII patterns. */
  function LowerAscii(c: char): char {
    if 'A' <= c <= 'Z' then (c as int + 32) as char else c
  }

  /** The anchored, case-insensitive regular expression `/^prefix/i` for an ASCII `prefix`. */
  predicate StartsWithIgnoreCase(s: string, prefix: string) {
    |prefix| <= |s| && forall i :: 0 <= i < |prefix| ==> LowerAscii(s[i]) == LowerAscii(prefix[i])
  }
}

=== FILE: node_runtime.dfy ===
/**
  The library functions of the JavaScript runtime that the core calls but
  whose behaviour is not part of this model: Node's legacy `url.parse` and
  `url.resolve`, the WHATWG `URL` constructor, and `mime-types`' `lookup`.
  They are passed around as one record of functions.
 */
module NodeRuntime {
  import opened Wrappers
  import opened Js

  datatype Runtime = Runtime(
    /** `url.parse(u).hostname`; `None` for `null`. */
    hostname: string -> Option<string>,
    /** `url.resolve(base, u)`. */
    resolve: (string, string) -> string,
    /** Whether `new URL(s)` succeeds. */
    urlAccepts: string -> bool,
    /** `mime.lookup(path)`; `None` for `false`. */
    lookup: string -> Option<string>
  )

  /** `parse(url).hostname || 'undefined'`: a missing or empty hostname becomes the literal "undefined". */
  function HostnameOf(rt: Runtime, url: string): (r: string)
    ensures r != ""
    ensures rt.hostname(url).Some? && rt.hostname(url).value != "" ==> r == rt.hostname(url).value
    ensures !(rt.hostname(url).Some? && rt.hostname(url).value != "") ==> r == "undefined"
  {
    match rt.hostname(url)
    case Some(h) => if h != "" then h else "undefined"
    case None => "undefined"
  }

  /** The regular expression `^https?://`, case-sensitive. */
  predicate IsAbsoluteHttp(url: string) {
    StartsWith(url, "http://") || StartsWith(url, "https://")
  }

  /** What rebasing does to one attribute value: an empty or absolute http(s) value stays, any other is resolved. */
  function Rebased(rt: Runtime, baseURL: string, value: string): string {
    if value == "" || IsAbsoluteHttp(value) then value else rt.resolve(baseURL, value)
  }

}

=== FILE: sanitize.dfy ===
/**
  The sanitization filter chain: single-node filters registered as hooks of
  the sanitizing engine, composed into an order-sensitive chain that depends
  on the sanitize properties.
 */
module Sanitize {
  import opened Wrappers
  import opened Js
  import opened Dom
  import opened NodeRuntime
  import opened Helpers

  // ---------------------------------------------------------------------
  // Single-node filters
  // ---------------------------------------------------------------------

  /** The `removeAttributes` filter: each listed attribute, in turn, is removed from an element. */
  function RemoveAttributes(blacklist: seq<string>, n: Node): (r: Node)
    ensures IsElementNode(n) ==> forall a :: a in blacklist ==> !HasAttribute(r, a)
    ensures IsElementNode(n) ==> SameExcept(n, r, set a | a in blacklist)
    ensures !IsElementNode(n) ==> r == n
  {
    if IsElementNode(n) then RemoveEach(blacklist, n) else n
  }

  /** The `removeImageTracker` filter: an attached tracking pixel is detached; nothing else changes. */
  function RemoveImageTracker(n: Node): (r: Node)
    ensures r.hasParent <==> n.hasParent && !IsTrackerPixel(n)
    ensures r.(hasParent := n.hasParent) == n
  {
    if TagName(n) == Str("IMG") && (HasAttribute(n, "height") || HasAttribute(n, "width")) then
      var height := GetAttribute(n, "height");
      var width := GetAttribute(n, "width");
      if height == Str("1") && width == Str("1") && n.hasParent then Detach(n) else n
    else n
  }

  /**
    The `removeBlockedHostLinks` filter: an attached element whose linked
    URL's hostname (the literal "undefined" when there is none) is blocked
    is detached; nothing else changes.
   */
  function RemoveBlockedHostLinks(isBlockedHost: string -> bool, rt: Runtime, n: Node): (r: Node)
    ensures r.hasParent <==>
      n.hasParent && !(IsElementNode(n) && LinkedUrl(n).Some? && isBlockedHost(HostnameOf(rt, LinkedUrl(n).value)))
    ensures r.(hasParent := n.hasParent) == n
  {
    if IsElementNode(n) && (HasAttribute(n, "src") || HasAttribute(n, "href")) then
      var src := Or(GetAttribute(n, "src"), GetAttribute(n, "href"));
      if Truthy(src) then
        var hostname := HostnameOf(rt, src.s);
        if isBlockedHost(hostname) && n.hasParent then Detach(n) else n
      else n
    else n
  }

  /**
    The `externalizeLinks` filter: an anchor with an `href` opens in a new,
    unrelated window; every other node is left alone.
   */
  function ExternalizeLinks(n: Node): (r: Node)
    ensures IsLink(n) ==>
      && GetAttribute(r, "target") == Str("_blank")
      && GetAttribute(r, "rel") == Str("noopener noreferrer")
      && SameExcept(n, r, {"target", "rel"})
    ensures !IsLink(n) ==> r == n
  {
    if TagName(n) == Str("A") && HasAttribute(n, "href") then
      SetAttribute(SetAttribute(n, "target", "_blank"), "rel", "noopener noreferrer")
    else n
  }

  /**
    The `rebaseSrcAttribute` filter: on an element, the `src` attribute when
    present (even empty), otherwise the `href`, is made absolute against
    `baseURL`; no other attribute changes.
   */
  function RebaseSrcAttribute(baseURL: string, rt: Runtime, n: Node): (r: Node)
    ensures !IsElementNode(n) ==> r == n
    ensures HasAttribute(n, "src") ==> SameExcept(n, r, {"src"})
    ensures !HasAttribute(n, "src") ==> SameExcept(n, r, {"href"})
    ensures IsElementNode(n) && HasAttribute(n, "src") ==>
      GetAttribute(r, "src") == Str(Rebased(rt, baseURL, n.attributes["src"]))
    ensures IsElementNode(n) && !HasAttribute(n, "src") && HasAttribute(n, "href") ==>
      GetAttribute(r, "href") == Str(Rebased(rt, baseURL, n.attributes["href"]))
    ensures !HasAttribute(n, "src") && !HasAttribute(n, "href") ==> r == n
  {
    if IsElementNode(n) then
      var attr := if HasAttribute(n, "src") then Str("src") else if HasAttribute(n, "href") then Str("href") else Null;
      if Truthy(attr) then
        var src := GetAttribute(n, attr.s);
        if Truthy(src) && !IsAbsoluteHttp(src.s) then SetAttribute(n, attr.s, rt.resolve(baseURL, src.s)) else n
      else n
    else n
  }

  /** The `addLazyLoadingAttribute` filter: images and iframes load lazily; every other node is left alone. */
  function AddLazyLoadingAttribute(n: Node): (r: Node)
    ensures n.nodeName == "IMG" || n.nodeName == "IFRAME" ==>
      GetAttribute(r, "loading") == Str("lazy") && SameExcept(n, r, {"loading"})
    ensures !(n.nodeName == "IMG" || n.nodeName == "IFRAME") ==> r == n
  {
    if n.nodeName == "IFRAME" || n.nodeName == "IMG" then SetAttribute(n, "loading", "lazy") else n
  }

  /** The `rewriteSrcAttribute` filter: a non-empty `src` of an element is passed through the rewriter. */
  function RewriteSrcAttribute(rewriteURL: string -> string, n: Node): (r: Node)
    ensures SameExcept(n, r, {"src"})
    ensures IsElementNode(n) && HasAttribute(n, "src") && n.attributes["src"] != "" ==>
      GetAttribute(r, "src") == Str(rewriteURL(n.attributes["src"]))
    ensures !(IsElementNode(n) && HasAttribute(n, "src") && n.attributes["src"] != "") ==> r == n
  {
    if IsElementNode(n) && HasAttribute(n, "src") then
      var value := GetAttribute(n, "src");
      if Truthy(value) then SetAttribute(n, "src", rewriteURL(value.s)) else n
    else n
  }

  // ---------------------------------------------------------------------
  // The chain
  // ---------------------------------------------------------------------

  /**
    One entry of the filter array handed to the sanitizing engine. Every
    constructor but `CallerFilters` is a filter closure; `CallerFilters` is
    the `props.filters` value itself, an array (or `undefined`) that is not
    a function.
   */
  datatype Filter =
    | Rewrite(rewriteURL: string -> string)
    | BlockHosts(isBlockedHost: string -> bool)
    | StripAttributes(blacklist: seq<string>)
    | TrackerRemoval
    | Externalize
    | LazyLoad
    | CallerFilters(filters: Option<seq<Node -> Node>>)
    | Rebase(baseURL: string)

  /** The hook the engine runs for one entry on one node. The `CallerFilters` slot is not callable and has no effect. */
  function ApplyFilter(rt: Runtime, f: Filter, n: Node): Node {
    match f
    case Rewrite(rewriteURL) => RewriteSrcAttribute(rewriteURL, n)
    case BlockHosts(isBlockedHost) => RemoveBlockedHostLinks(isBlockedHost, rt, n)
    case StripAttributes(blacklist) => RemoveAttributes(blacklist, n)
    case TrackerRemoval => RemoveImageTracker(n)
    case Externalize => ExternalizeLinks(n)
    case LazyLoad => AddLazyLoadingAttribute(n)
    case CallerFilters(_) => n
    case Rebase(baseURL) => RebaseSrcAttribute(baseURL, rt, n)
  }

  /** The engine's `beforeSanitizeElements` hooks on one node: every entry, in registration order. */
  function ApplyChain(rt: Runtime, chain: seq<Filter>, n: Node): Node
    decreases |chain|
  {
    if |chain| == 0 then n else ApplyChain(rt, chain[1..], ApplyFilter(rt, chain[0], n))
  }

  /** Running two chains one after the other is running their concatenation. */
  lemma {:induction false} ApplyChainAppend(rt: Runtime, a: seq<Filter>, b: seq<Filter>, n: Node)
    ensures ApplyChain(rt, a + b, n) == ApplyChain(rt, b, ApplyChain(rt, a, n))
    decreases |a|
  {
    if |a| == 0 {
      assert a + b == b;
    } else {
      assert (a + b)[0] == a[0];
      assert (a + b)[1..] == a[1..] + b;
      ApplyChainAppend(rt, a[1..], b, ApplyFilter(rt, a[0], n));
    }
  }

  /** `DefaultFilterChain`. */
  const DefaultFilterChain: seq<Filter> := [StripAttributes(["id", "class"]), TrackerRemoval, Externalize, LazyLoad]

  /** `ADD_ATTR`: the attributes the engine keeps beyond its defaults. */
  const AddedAttributes: seq<string> := ["target"]

  /** The values a property object can carry. */
  datatype PropValue =
    | Text(text: JsStr)
    | Flag(flag: Option<bool>)
    | HostCheck(check: Option<string -> bool>)
    | Rewriter(rewriter: Option<string -> string>)
    | FilterList(filters: Option<seq<Node -> Node>>)

  /** A property object as a caller builds it: keys to values. */
  type PropBag = map<string, PropValue>

  /** `CleanupProps`: the properties `sanitize` reads. */
  datatype CleanupProps = CleanupProps(
    baseURL: JsStr,
    isBlockedHost: Option<string -> bool>,
    rewriteURL: Option<string -> string>,
    filters: Option<seq<Node -> Node>>)

  /**
    What `sanitize` reads from a property object: the keys `baseURL`,
    `isBlockedHost`, `rewriteURL` and `filters`, each `undefined` when absent.
   */
  function ReadProps(bag: PropBag): (props: CleanupProps)
    ensures "isBlockedHost" !in bag ==> props.isBlockedHost.None?
    ensures "rewriteURL" !in bag ==> props.rewriteURL.None?
    ensures "baseURL" !in bag ==> props.baseURL == Undefined
    ensures "filters" !in bag ==> props.filters.None?
    ensures "baseURL" in bag && bag["baseURL"].Text? ==> props.baseURL == bag["baseURL"].text
    ensures "isBlockedHost" in bag && bag["isBlockedHost"].HostCheck? ==> props.isBlockedHost == bag["isBlockedHost"].check
    ensures "rewriteURL" in bag && bag["rewriteURL"].Rewriter? ==> props.rewriteURL == bag["rewriteURL"].rewriter
    ensures "filters" in bag && bag["filters"].FilterList? ==> props.filters == bag["filters"].filters
  {
    CleanupProps(
      if "baseURL" in bag && bag["baseURL"].Text? then bag["baseURL"].text else Undefined,
      if "isBlockedHost" in bag && bag["isBlockedHost"].HostCheck? then bag["isBlockedHost"].check else None,
      if "rewriteURL" in bag && bag["rewriteURL"].Rewriter? then bag["rewriteURL"].rewriter else None,
      if "filters" in bag && bag["filters"].FilterList? then bag["filters"].filters else None)
  }

  /** How many entries are put in front of the default chain. */
  function Prepended(props: CleanupProps): nat {
    (if props.rewriteURL.Some? then 1 else 0) + (if props.isBlockedHost.Some? then 1 else 0)
  }

  /**
    The entries put in front of the default chain. The blocked-host filter is
    prepended first and the rewriter after it, so the rewriter ends up first.
   */
  function Front(props: CleanupProps): (pre: seq<Filter>)
    ensures |pre| == Prepended(props)
    ensures forall i :: 0 <= i < |pre| ==>
      && (pre[i].Rewrite? <==> i == 0 && props.rewriteURL.Some?)
      && (pre[i].BlockHosts? <==> props.isBlockedHost.Some? && i == |pre| - 1)
      && !pre[i].Rebase?
    ensures props.rewriteURL.Some? ==> pre[0] == Rewrite(props.rewriteURL.value)
    ensures props.isBlockedHost.Some? ==> pre[|pre| - 1] == BlockHosts(props.isBlockedHost.value)
  {
    var pre := if props.isBlockedHost.Some? then [BlockHosts(props.isBlockedHost.value)] else [];
    if props.rewriteURL.Some? then [Rewrite(props.rewriteURL.value)] + pre else pre
  }

  /** The entry pushed after the caller's `filters` slot: the rebaser, when the base URL is truthy. */
  function Back(props: CleanupProps): (post: seq<Filter>)
    ensures |post| == if Truthy(props.baseURL) then 1 else 0
    ensures forall i :: 0 <= i < |post| ==> post[i] == Rebase(props.baseURL.s)
  {
    if Truthy(props.baseURL) then [Rebase(props.baseURL.s)] else []
  }

  /** Indexing into `pre + DefaultFilterChain + [slot] + post`. */
  lemma ChainIndex(pre: seq<Filter>, slot: Filter, post: seq<Filter>, i: int)
    requires 0 <= i < |pre| + 5 + |post|
    ensures var c := pre + DefaultFilterChain + [slot] + post;
      && (i < |pre| ==> c[i] == pre[i])
      && (|pre| <= i < |pre| + 4 ==> c[i] == DefaultFilterChain[i - |pre|])
      && (i == |pre| + 4 ==> c[i] == slot)
      && (|pre| + 4 < i ==> c[i] == post[i - |pre| - 5])
  {
  }

  /** The default chain sits whole after the front entries. */
  lemma ChainMiddle(pre: seq<Filter>, slot: Filter, post: seq<Filter>)
    ensures var c := pre + DefaultFilterChain + [slot] + post;
      c[|pre|..|pre| + 4] == DefaultFilterChain
  {
    var c := pre + DefaultFilterChain + [slot] + post;
    var rest := DefaultFilterChain + [slot] + post;
    assert c == pre + rest;
    assert c[|pre|..] == rest;
    assert rest[..4] == DefaultFilterChain;
    assert c[|pre|..|pre| + 4] == c[|pre|..][..4];
  }

  /** Where each kind of entry sits in the chain `sanitize` assembles. */
  lemma ChainLayout(props: CleanupProps, chain: seq<Filter>)
    requires chain == Front(props) + DefaultFilterChain + [CallerFilters(props.filters)] + Back(props)
    ensures forall i :: 0 <= i < |chain| ==>
      && (chain[i].Rewrite? <==> i == 0 && props.rewriteURL.Some?)
      && (chain[i].BlockHosts? <==> props.isBlockedHost.Some? && i == Prepended(props) - 1)
      && (chain[i].Rebase? <==> Truthy(props.baseURL) && i == |chain| - 1)
  {
    var pre := Front(props);
    var post := Back(props);
    forall i | 0 <= i < |chain|
      ensures && (chain[i].Rewrite? <==> i == 0 && props.rewriteURL.Some?)
              && (chain[i].BlockHosts? <==> props.isBlockedHost.Some? && i == |pre| - 1)
              && (chain[i].Rebase? <==> Truthy(props.baseURL) && i == |chain| - 1)
    {
      ChainIndex(pre, CallerFilters(props.filters), post, i);
    }
  }

  /**
    The chain `sanitize` builds: the rewriter (when given) first, then the
    blocked-host filter (when given), the four default filters, the caller's
    `filters` value as one entry, and the rebaser last (when the base URL is
    truthy).
   */
  function FilterChain(props: CleanupProps): (chain: seq<Filter>)
    ensures |chain| == Prepended(props) + 5 + (if Truthy(props.baseURL) then 1 else 0)
    ensures chain[Prepended(props)..Prepended(props) + 4] == DefaultFilterChain
    ensures chain[Prepended(props) + 4] == CallerFilters(props.filters)
    ensures forall i :: 0 <= i < |chain| ==>
      (chain[i].Rewrite? <==> i == 0 && props.rewriteURL.Some?)
    ensures props.rewriteURL.Some? ==> chain[0] == Rewrite(props.rewriteURL.value)
    ensures forall i :: 0 <= i < |chain| ==>
      (chain[i].BlockHosts? <==> props.isBlockedHost.Some? && i == Prepended(props) - 1)
    ensures props.isBlockedHost.Some? ==> chain[Prepended(props) - 1] == BlockHosts(props.isBlockedHost.value)
    ensures forall i :: 0 <= i < |chain| ==>
      (chain[i].Rebase? <==> Truthy(props.baseURL) && i == |chain| - 1)
    ensures Truthy(props.baseURL) ==> chain[|chain| - 1] == Rebase(props.baseURL.s)
  {
    var chain := Front(props) + DefaultFilterChain + [CallerFilters(props.filters)] + Back(props);
    ChainMiddle(Front(props), CallerFilters(props.filters), Back(props));
    ChainIndex(Front(props), CallerFilters(props.filters), Back(props), Prepended(props) + 4);
    ChainLayout(props, chain);
    chain
  }

  /** Whatever the properties, the rewriter runs before the rebaser, so rebasing sees the rewritten `src`. */
  lemma RewriteBeforeRebase(props: CleanupProps, i: int, j: int)
    requires 0 <= i < |FilterChain(props)| && 0 <= j < |FilterChain(props)|
    requires FilterChain(props)[i].Rewrite? && FilterChain(props)[j].Rebase?
    ensures i < j
  {
  }

  /** The sanitizing engine: it parses the HTML, runs the hooks on every node it walks, strips and serializes. */
  type Purifier = (string, seq<Filter>, seq<string>) -> string

  /** `sanitize`: the engine run with the chain of `props` as hooks and `target` allowed. */
  function Sanitize(purify: Purifier, html: string, props: CleanupProps): (r: string)
    ensures r == purify(html, FilterChain(props), ["target"])
    ensures props.rewriteURL.None? && props.isBlockedHost.None? && !Truthy(props.baseURL) ==>
      r == purify(html, DefaultFilterChain + [CallerFilters(props.filters)], ["target"])
  {
    PlainChain(props);
    purify(html, FilterChain(props), AddedAttributes)
  }

  /** Without a rewriter, a host check or a base URL, the chain is the default chain and the `filters` slot. */
  lemma PlainChain(props: CleanupProps)
    ensures props.rewriteURL.None? && props.isBlockedHost.None? && !Truthy(props.baseURL) ==>
      FilterChain(props) == DefaultFilterChain + [CallerFilters(props.filters)]
  {
    if props.rewriteURL.None? && props.isBlockedHost.None? && !Truthy(props.baseURL) {
      var chain := FilterChain(props);
      assert chain[..4] == DefaultFilterChain;
      assert chain == chain[..4] + [chain[4]];
    }
  }

  // ---------------------------------------------------------------------
  // Properties of the filters and chains
  // ---------------------------------------------------------------------

  lemma ExternalizeLinksIsIdempotent(n: Node)
    ensures ExternalizeLinks(ExternalizeLinks(n)) == ExternalizeLinks(n)
  {
  }

  lemma AddLazyLoadingIsIdempotent(n: Node)
    ensures AddLazyLoadingAttribute(AddLazyLoadingAttribute(n)) == AddLazyLoadingAttribute(n)
  {
  }

  /** An empty `src` still selects `src`: the `href` beside it is not rebased. */
  lemma EmptySrcShadowsHref(rt: Runtime, baseURL: string, n: Node)
    requires IsElementNode(n) && GetAttribute(n, "src") == Str("")
    ensures RebaseSrcAttribute(baseURL, rt, n) == n
  {
  }

  /** Unfolds one entry of a chain. */
  lemma ApplyChainCons(rt: Runtime, f: Filter, rest: seq<Filter>, n: Node)
    ensures ApplyChain(rt, [f] + rest, n) == ApplyChain(rt, rest, ApplyFilter(rt, f, n))
  {
    assert ([f] + rest)[0] == f;
    assert ([f] + rest)[1..] == rest;
  }

  /** Setting an attribute to the value it already has changes nothing. */
  lemma SetAttributeSame(n: Node, name: string, value: string)
    requires GetAttribute(n, name) == Str(value)
    ensures SetAttribute(n, name, value) == n
  {
    assert n.attributes[name := value] == n.attributes;
  }

  /** What one pass of the default chain leaves behind. */
  ghost predicate DefaultChainDone(n: Node) {
    && (IsElementNode(n) ==> !HasAttribute(n, "id") && !HasAttribute(n, "class"))
    && (IsTrackerPixel(n) ==> !n.hasParent)
    && (IsLink(n) ==> GetAttribute(n, "target") == Str("_blank") && GetAttribute(n, "rel") == Str("noopener noreferrer"))
    && (n.nodeName == "IMG" || n.nodeName == "IFRAME" ==> GetAttribute(n, "loading") == Str("lazy"))
  }

  /** The default chain is the composition of its four filters. */
  lemma DefaultChainUnfold(rt: Runtime, n: Node)
    ensures ApplyChain(rt, DefaultFilterChain, n)
         == AddLazyLoadingAttribute(ExternalizeLinks(RemoveImageTracker(RemoveAttributes(["id", "class"], n))))
  {
    var d := DefaultFilterChain;
    ApplyChainCons(rt, d[0], d[1..], n);
    ApplyChainCons(rt, d[1], d[2..], ApplyFilter(rt, d[0], n));
    assert [d[1]] + d[2..] == d[1..];
    assert [d[2]] + d[3..] == d[2..];
    assert [d[3]] == d[3..];
  }

  lemma DefaultChainEstablishesDone(rt: Runtime, n: Node)
    ensures DefaultChainDone(ApplyChain(rt, DefaultFilterChain, n))
  {
    DefaultChainUnfold(rt, n);
    var n1 := RemoveAttributes(["id", "class"], n);
    var n2 := RemoveImageTracker(n1);
    var n3 := ExternalizeLinks(n2);
    var n4 := AddLazyLoadingAttribute(n3);
    assert SameExcept(n1, n4.(hasParent := n1.hasParent), {"target", "rel", "loading"});
    assert IsTrackerPixel(n4) == IsTrackerPixel(n1);
  }

  lemma DefaultChainKeepsDone(rt: Runtime, n: Node)
    requires DefaultChainDone(n)
    ensures ApplyChain(rt, DefaultFilterChain, n) == n
  {
    if IsElementNode(n) {
      RemoveEachAbsent(["id", "class"], n);
    }
    assert RemoveAttributes(["id", "class"], n) == n;
    assert RemoveImageTracker(n) == n;
    if IsLink(n) {
      SetAttributeSame(n, "target", "_blank");
      SetAttributeSame(n, "rel", "noopener noreferrer");
    }
    assert ExternalizeLinks(n) == n;
    if n.nodeName == "IMG" || n.nodeName == "IFRAME" {
      SetAttributeSame(n, "loading", "lazy");
    }
    assert AddLazyLoadingAttribute(n) == n;
    assert ApplyChain(rt, DefaultFilterChain, n) == n;
  }

  /** A second pass of the default chain changes nothing. */
  lemma DefaultChainIsIdempotent(rt: Runtime, n: Node)
    ensures ApplyChain(rt, DefaultFilterChain, ApplyChain(rt, DefaultFilterChain, n))
         == ApplyChain(rt, DefaultFilterChain, n)
  {
    DefaultChainEstablishesDone(rt, n);
    DefaultChainKeepsDone(rt, ApplyChain(rt, DefaultFilterChain, n));
  }

  /** The default chain never touches `src`, the node's type or its name. */
  lemma DefaultChainKeepsSrc(rt: Runtime, n: Node)
    ensures var r := ApplyChain(rt, DefaultFilterChain, n);
      r.nodeType == n.nodeType && r.nodeName == n.nodeName && GetAttribute(r, "src") == GetAttribute(n, "src")
  {
    DefaultChainUnfold(rt, n);
  }

  /** The default chain on an attached image that is not a tracking pixel: it only gains `loading="lazy"`. */
  lemma DefaultChainOnImage(rt: Runtime, n: Node)
    requires IsElementNode(n) && n.nodeName == "IMG"
    requires !HasAttribute(n, "id") && !HasAttribute(n, "class") && !IsTrackerPixel(n)
    ensures ApplyChain(rt, DefaultFilterChain, n) == SetAttribute(n, "loading", "lazy")
  {
    DefaultChainUnfold(rt, n);
    RemoveEachAbsent(["id", "class"], n);
  }

  /** The default chain detaches an attached tracking pixel. */
  lemma DefaultChainDetachesTracker(rt: Runtime, n: Node)
    requires IsTrackerPixel(n)
    ensures !ApplyChain(rt, DefaultFilterChain, n).hasParent
  {
    DefaultChainUnfold(rt, n);
  }

  /** With only a rewriter configured, the chain is the rewriter followed by the default chain. */
  lemma RewriterOnlyChain(rt: Runtime, props: CleanupProps, n: Node)
    requires props.rewriteURL.Some? && props.isBlockedHost.None? && !Truthy(props.baseURL)
    ensures ApplyChain(rt, FilterChain(props), n)
         == ApplyChain(rt, DefaultFilterChain, RewriteSrcAttribute(props.rewriteURL.value, n))
  {
    var chain := FilterChain(props);
    var slot := CallerFilters(props.filters);
    assert chain == [Rewrite(props.rewriteURL.value)] + DefaultFilterChain + [slot];
    ApplyChainAppend(rt, [Rewrite(props.rewriteURL.value)] + DefaultFilterChain, [slot], n);
    ApplyChainAppend(rt, [Rewrite(props.rewriteURL.value)], DefaultFilterChain, n);
  }

  /** With only a rewriter configured, an element's non-empty `src` comes out rewritten. */
  lemma RewriterOnlyChainSrc(rt: Runtime, props: CleanupProps, n: Node)
    requires props.rewriteURL.Some? && props.isBlockedHost.None? && !Truthy(props.baseURL)
    requires IsElementNode(n) && HasAttribute(n, "src") && n.attributes["src"] != ""
    ensures var r := ApplyChain(rt, FilterChain(props), n);
      && IsElementNode(r)
      && GetAttribute(r, "src") == Str(props.rewriteURL.value(n.attributes["src"]))
  {
    RewriterOnlyChain(rt, props, n);
    DefaultChainKeepsSrc(rt, RewriteSrcAttribute(props.rewriteURL.value, n));
  }

  /**
    With a rewriter, a second pass is not idempotent: a prefixing rewriter
    runs again on its own output.
   */
  lemma SecondPassRewritesAgain(rt: Runtime, prefix: string, n: Node)
    requires prefix != ""
    requires IsElementNode(n) && HasAttribute(n, "src") && n.attributes["src"] != ""
    ensures var props := CleanupProps(Undefined, None, Some((s: string) => prefix + s), None);
      var once := ApplyChain(rt, FilterChain(props), n);
      var twice := ApplyChain(rt, FilterChain(props), once);
      && GetAttribute(once, "src") == Str(prefix + n.attributes["src"])
      && GetAttribute(twice, "src") == Str(prefix + (prefix + n.attributes["src"]))
      && twice != once
  {
    var props := CleanupProps(Undefined, None, Some((s: string) => prefix + s), None);
    RewriterOnlyChainSrc(rt, props, n);
    var once := ApplyChain(rt, FilterChain(props), n);
    RewriterOnlyChainSrc(rt, props, once);
    var twice := ApplyChain(rt, FilterChain(props), once);
    assert |twice.attributes["src"]| > |once.attributes["src"]|;
  }
}

=== FILE: wrappers.dfy ===
/** Option and Result, the two failure-carrying wrappers the model uses. */
module Wrappers {

  /** A value that may be missing. */
  datatype Option<+T> = None | Some(value: T)

  /** The outcome of an operation that can reject with an error. */
  datatype Result<+T, +E> = Ok(value: T) | Err(error: E)
}
